=== FILE: README.md ===
# Super-Morpion server, modelled in Dafny

A model of the game server of Super-Morpion (ultimate tic-tac-toe for two
players over sockets), proved in Dafny 4.11. The model covers three parts of
`server.js`:

- **Board rules.** A board of nine sub-boards of nine cells. A sub-board is
  won by three in a row, and the game is won by three won sub-boards in a
  row. `checkWin`, `checkSmallWin`, `checkBigWin` and `newEmptyState` are in
  modules `Board` and `Game`.
- **The move transition.** The body of the `playMove` handler as a pure
  function `Game.ApplyMove`. It runs the checks in the source's order (turn,
  indices, target sub-board, sub-board already won, cell taken), places the
  mark, records a won sub-board, and decides where the opponent plays next
  (the "joker" free choice). It then settles a win or a draw by resetting
  the board while keeping the score.
- **The room table.** The table is a map from room code to room. Each room
  holds the two seats, the nicknames, one game, and its creation and
  last-activity times. `ensureRoom`, `touch`, `roomPlayerOf`, the
  create/join/resume/play/leave/disconnect handlers, the public room list
  and the idle-room cleanup are modelled in modules `Rooms`, `Directory` and
  `Reaper`.

Every handler is a pure function from the table (and the request) to
`Step(rooms, reply)`: the next table and the acknowledgement sent to the
caller. The current time (`Date.now`) and the generated room code
(`Math.random`) are parameters.

Modules and files:

| file | module | holds |
|---|---|---|
| options.dfy | Options | `Option`, the source's `null` |
| board.dfy | Board | marks, grids, the eight lines, the line judge |
| game.dfy | Game | game state, new game, move checks, placing and settling a move |
| game_lemmas.dfy | GameLemmas | the board invariant, scoring, draws, stuck positions |
| game_scenarios.dfy | GameScenarios | concrete games: an opening, a sub-board win, a dead end |
| codes.dfy | Codes | JavaScript `trim` and ASCII upper-casing of room codes |
| rooms.dfy | Rooms | the room table and its handlers |
| room_lemmas.dfy | RoomLemmas | properties of the handlers across the table |
| directory.dfy | Directory | the public room list |
| reaper.dfy | Reaper | the idle-room cleanup |
| raw_code.dfy | RawCode | `playMove` as written, with its raw-code reset (see Findings) |

How JavaScript values are modelled:

- **Timestamps** are integers. 0 stands for a missing or falsy time, as in
  `room.lastActivity || room.createdAt || 0`.
- **Nicknames** are strings. The empty string stands for a missing or falsy
  nickname, so `nickname || 'J1'` becomes `NicknameOr`.
- **Connection ids** are non-empty strings, as the transport assigns them.
  A seat is bound (truthy in the source) exactly when it is `Some(id)`.
- **Room codes.** Create and join trim the code and upper-case it. Resume,
  play and leave only upper-case it. `touch` in resume and leave, and in
  play the reset after a decided game, the `touch` and the read-back of the
  new state, index the table with the code exactly as sent.
  The model keeps each of these distinctions.

Where the code and its comments differ, the model follows the code:

- **Join order.** A comment in `joinRoom` says O is assigned first. The code
  assigns X when X is free, else O.
- **Room list order.** `getRoomsList` maps `Object.entries(rooms)` and does
  not sort. The model is a map from code to summary.

## Model

| member | source | states |
|---|---|---|
| Board.CheckWin | server.js:88-93 | the result is a mark exactly when some triple holds three equal marks, and it is the mark of the first such triple |
| Board.SmallLines | server.js:95-105 | the literal list of a sub-board's triples is, entry by entry, the eight rows, columns and diagonals |
| Board.BigLines | server.js:109-119 | the literal list of the big board's triples is, entry by entry, the eight rows, columns and diagonals |
| Board.CheckSmallWin | server.js:95-107 | a sub-board has a winner exactly when X or O holds a full line, and the winner holds one |
| Board.CheckBigWin | server.js:109-121 | the big board has a winner exactly when X or O holds a full line of won sub-boards, and the winner holds one |
| Board.SameJudge | server.js:95-121 | the sub-board judge and the big-board judge list the same lines and always agree |
| Board.SingleMarkUndecided | server.js:95-121 | a grid with a single mark has no winner |
| Board.EmptyGridUndecided | server.js:60-70 | the empty grid has no winner |
| Game.Credit | server.js:260-261 | the winner's count goes up by one and the other count is unchanged |
| Game.NewEmptyState | server.js:60-70 | a new game has empty boards, X to move, a free choice, score 0-0, and keeps the board invariant |
| Game.Reset | server.js:272-277 | the reset after a decided game clears the boards, gives X the move and a free choice, and keeps the given score |
| Game.Place | server.js:240-254 | placing a legal move writes exactly one cell. A sub-board it wins is recorded and grants a free choice. Otherwise the opponent is free exactly when the target is already completed, and is sent to the cell's number. The completed list gains the sub-board when the move wins it and it is not listed yet. Nothing else changes |
| Game.Settle | server.js:256-278 | a board with a winning line credits the winner and resets; a board with all nine sub-boards decided and no line is a draw that resets with the score kept; otherwise the turn passes |
| Game.ApplyMove | server.js:229-278 | a move is accepted exactly when it is legal. Each refusal reason is given in the source's order (turn, indices, target, won sub-board, taken cell). An accepted move is placed and then settled |
| GameLemmas.NewLineIsMovers | server.js:240-256 | writing one mark into a grid without a line can complete a line only of that mark |
| GameLemmas.PlaceKeepsRecord | server.js:240-251 | placing a legal move keeps each sub-board's recorded winner equal to its judge's verdict, keeps the completed list exactly the decided sub-boards, and keeps a forced target undecided |
| GameLemmas.MovePreservesConsistent | server.js:223-278 | an accepted move from a state with the board invariant and an undecided game yields such a state again |
| GameLemmas.ContinueWritesOneCell | server.js:240-270 | a move that does not end the game turns exactly one empty cell into the mover's mark and leaves decided sub-boards alone |
| GameLemmas.NextMoverRule | server.js:243-254 | after a move that goes on, the turn passes and the opponent is sent to the cell's number. They may play anywhere exactly when the move won its sub-board or the target is decided |
| GameLemmas.WinScoresMover | server.js:256-277 | only the mover can win. A win credits the mover with one game and starts a fresh board with the score kept |
| GameLemmas.DrawNeedsAllWon | server.js:262-277 | a draw happens only when all nine sub-boards have a winner, and it keeps the score and clears the boards |
| GameLemmas.DeadSubBoardBlocksDraw | server.js:262-265 | a sub-board filled without a winner stays undecided, so a game holding one never ends in a draw |
| GameLemmas.FullTargetRejectsAll | server.js:229-238 | a mover sent to a full, undecided sub-board without a free choice has every move refused, and the opponent is refused for turn |
| GameLemmas.QuietMove | server.js:240-270 | a legal move that completes no line goes on, with the big board and the completed list unchanged and the turn passed |
| GameScenarios.DrawnGridUndecided | server.js:95-107 | a sub-board filled as X O X / X O O / O X X has no winner |
| GameScenarios.DeadEnd | server.js:229-270 | filling the last cell of the forced sub-board without a line sends the opponent back to it, after which no move by either side is accepted |
| GameScenarios.FillLastCell | server.js:240-270 | filling the last open cell of the forced sub-board without a line goes on, and sends the opponent back to that sub-board, now full and undecided, without a free choice |
| GameScenarios.Stuck | server.js:229-238 | a mover sent to a full, undecided sub-board without a free choice is stuck: every move by either side is refused |
| GameScenarios.DeadEndExists | server.js:60-70 | the dead end above is reached from a state that keeps the board invariant |
| GameScenarios.Opening | server.js:223-270 | X plays the centre sub-board's cell 0, O is refused in sub-board 1 and accepted in cell 4 of sub-board 0 |
| GameScenarios.TopRowWin | server.js:240-251 | completing a sub-board's top row records X as its winner, lists it as completed and gives O a free choice |
| Codes.TrimStart | server.js:164 | only leading white space is removed, and the rest does not start with white space |
| Codes.TrimEnd | server.js:164 | only trailing white space is removed, and the rest does not end with white space |
| Codes.Trim | server.js:164 | the result is the input with white space removed at both ends only, and neither of its ends is white space |
| Codes.Upper | server.js:164 | each character is upper-cased in place and the length is kept |
| Codes.Normalize | server.js:187 | the code is the input with its leading and trailing white space removed, then upper-cased; it is trimmed and has no lower-case letter |
| Codes.NormalizeFixes | server.js:164 | normalizing leaves exactly the already-normalized codes unchanged |
| Codes.NormalizeIdempotent | server.js:187 | normalizing a code twice is normalizing it once |
| Rooms.FreshRoom | server.js:72-82 | a new room has no seated player, no nickname, a new game, and both times set to now |
| Rooms.EnsureRoom | server.js:72-82 | the table gains the code, an existing room is kept as it is, and a missing one is created fresh |
| Rooms.Touch | server.js:84-86 | only the named room's activity time changes, and nothing happens for a missing room |
| Rooms.RoomPlayerOf | server.js:123-128 | the caller gets a role exactly when it holds a seat, the role is a seat it holds, and X is reported first |
| Rooms.CreateCode | server.js:164-165 | the trimmed, upper-cased request is the code, and the generated code is used when that is empty |
| Rooms.CreateIn | server.js:166-177 | create is refused exactly when the room under the code has a bound seat, and a refusal leaves the table as it was. Otherwise the caller takes X, with its nickname or "J1", and the rest of the table is unchanged |
| Rooms.CreateRoom | server.js:162-177 | a room created from a request is seated under the generated code or a normalized one |
| Rooms.JoinIn | server.js:188-203 | join is refused exactly when both seats are bound, and a refusal leaves the table as it was. Otherwise the caller takes X if free, else O, on a seat that was free, with the other seat and the game untouched |
| Rooms.JoinRoom | server.js:185-203 | a joined room's code is normalized |
| Rooms.ResumeRoom | server.js:212-219 | an unknown code is refused and changes nothing. Otherwise the reply echoes the code as sent and carries the room's game and the role the caller holds, if any, X first when it holds both. The only change is the activity time of the room stored under the code exactly as sent, set to now when there is one |
| Rooms.PlayMove | server.js:223-285 | the corrected handler. An unknown room and a caller not holding the claimed role are refused. Refusals change nothing, and a move the seated role may not make is refused with the move check's reason and no change. A move is accepted exactly when the caller holds the role and the move is legal. Then only that room's game and activity time change |
| Rooms.Unseat | server.js:300-301 | every seat the caller held becomes free and a seat it did not hold is kept |
| Rooms.LeaveRoom | server.js:297-304 | in the room under the upper-cased code, each seat the caller held becomes free, the other seat is kept, and its nickname is dropped. Games, creation times and the other rooms' seats stay as they were. An unknown code changes nothing. Otherwise the only activity time that changes is that of the room stored under the code exactly as sent, set to now |
| Rooms.Release | server.js:313-317 | a disconnect frees the connection's seats in a room and drops its nickname only when it is non-empty, leaving the game and times alone |
| Rooms.Disconnect | server.js:311-320 | every room is released from the connection, no room is removed, and the rooms reported as left are exactly those the connection was seated or named in |
| RoomLemmas.JoinNeverRoleUnavailable | server.js:191-196 | the "Rôle indisponible" refusal is never given, and join is refused only as a full room |
| RoomLemmas.EnsureRoomIdempotent | server.js:72-82 | ensuring a room twice is ensuring it once |
| RoomLemmas.SelfJoinTakesBothSeats | server.js:191-199 | one connection joining a new code twice holds both X and O, and a move it claims as O is then refused as unauthorized |
| RoomLemmas.DecidedMoveResetsRoom | server.js:256-278 | after a winning or drawn move the room holds a fresh board, with X to move, the winner credited and the seats unchanged |
| RoomLemmas.PlayKeepsTableConsistent | server.js:223-285 | a move keeps the board invariant of every room |
| RoomLemmas.CreateKeepsTableConsistent | server.js:162-177 | creating keeps the board invariant of every room |
| RoomLemmas.JoinKeepsTableConsistent | server.js:185-203 | joining keeps the board invariant of every room |
| RoomLemmas.ResumeLeaveKeepTableConsistent | server.js:212-219 | resuming and leaving keep the board invariant of every room |
| RoomLemmas.ReleaseIdempotent | server.js:311-317 | releasing a connection twice is releasing it once, and it leaves the connection with no seat or nickname |
| RoomLemmas.LowerCaseVisitDoesNotRefresh | server.js:217 | resume and leave with a lower-case code, for a room stored in upper case, refresh no room's activity time |
| Directory.DisplayName | server.js:151-152 | a seat shows a name exactly when it is bound. The name is the occupant's non-empty nickname, else "J1" or "J2" |
| Directory.ShownActivity | server.js:156 | the listed activity time is the room's, or its creation time when unset |
| Directory.RoomsList | server.js:147-159 | exactly the table's rooms are listed. A room is full exactly when both seats are bound, and it shows each seat's display name (the nickname or the role's default, nothing for a free seat), its creation time, its last activity (falling back to the creation time) and the time-to-live |
| Directory.FullRoomListedFull | server.js:147-159 | a full room is listed as full with both names, and joining it is refused without any change |
| Directory.JoinShowsName | server.js:198-199 | after a join, the list shows the joiner's nickname, or the seat's default, on the seat it took |
| Reaper.Survivors | server.js:342-351 | the cleanup keeps exactly the rooms that are not idle beyond the time-to-live, unchanged |
| Reaper.Sweep | server.js:340-354 | one round of the cleanup leaves the survivors, and the closed rooms are exactly the expired ones |
| Reaper.SweepIdempotent | server.js:340-354 | a second cleanup at the same time closes nothing more |
| Reaper.TouchedSurvives | server.js:344-345 | a room touched at the current time survives a cleanup at that time |
| Reaper.SweepOnlyRemoves | server.js:340-354 | the cleanup keeps the board invariant and the seats of the rooms it keeps |
| Reaper.UnsetTimesExpire | server.js:344-345 | a room with both times unset reads as last active at 0 |
| RawCode.Decided | server.js:240-262 | the game after a deciding move, before the reset, has the move placed, the winner credited and the turn not passed |
| RawCode.PlayMoveAsWritten | server.js:223-285 | the handler as written throws exactly when an accepted move was sent under a code the table does not hold, although the room was found under its upper-cased code. The move is then left written in that room and no other room changes |
| RawCode.FinishAsWritten | server.js:272-280 | the reset as written throws exactly when the code as sent differs from the stored code and is not itself stored. Under the stored code, it resets that room and touches it |
| RawCode.SettleIsDecidedReset | server.js:256-278 | the settled game is the decided game reset with its score |
| RawCode.AsWrittenAgreesOnUpperCase | server.js:223-285 | for a code sent in upper case, the handler as written and the corrected one agree |
| RawCode.LowerCaseDecidingMoveThrows | server.js:272-277 | a deciding move sent with a code the room is not stored under throws. The room keeps the decided board with the move on it, while the corrected handler resets it |
| RawCode.MatchPointWins | server.js:256-262 | the match-point position is won by X at sub-board 2, cell 2 |
| RawCode.LowerCaseContinuingMoveThrows | server.js:267-285 | a move that goes on, sent under a code the table does not hold, throws at the read-back of the state. The room keeps the move with the turn passed and its activity time unrefreshed, while the corrected handler acknowledges the move |
| RawCode.LowerCaseOpeningExample | server.js:279-285 | X's opening move in room "ABC" sent as "abc" is acknowledged by the corrected handler, while the handler as written throws |
| RawCode.LowerCaseWinExample | server.js:272-280 | with the code sent as "abc" for room "ABC", the corrected handler replies with X's win and a reset board scored 1-0, while the handler as written throws |

## Left out

- **Transport.** Socket wiring, room membership (`socket.join`/`leave`) and
  every broadcast (`roomInfo`, `roomsUpdated`, `stateUpdate`, `playerLeft`,
  `playerJoined`, `roomClosed`) are outside the model. They carry no state
  the handlers read back.
- **Persistence.** `loadRooms` and `saveRooms` are file I/O. The model's table
  is the in-memory `rooms` object.
- **`cursorMove`.** It only forwards a cursor position to the other player,
  plus a `touch`.
- **`buildRoomInfo`.** It is a read-only projection sent to clients. The
  listing it shares its naming rule with is modelled as `Directory.DisplayName`.
- **Time and randomness.** `Date.now()` and `Math.random()` are parameters.
  The generated code is any code the caller passes.
- **The TTL setting.** The `ROOM_TTL_MS` environment setting is the integer
  `ttl` parameter, and `Rooms.DefaultTtl` is its default, 1800000. A
  non-numeric setting, which `parseInt` turns into `NaN`, is left out: with
  `NaN` no room ever expires and the list shows `ttlMs: NaN`, and no integer
  `ttl` behaves like that.
- **JavaScript's loose typing.** Codes, nicknames and connection ids are
  strings, and a role is X or O. Requests with non-string codes, numeric
  strings as indices, or roles other than X/O are not modelled.
- **Exceptions in create and join.** The try/catch there only turns a thrown
  error into a generic message. No modelled step of those handlers throws.
- **Fault outcome.** `RawCode.PlayMoveAsWritten` records the throw as
  `Threw(table)`. Whether the process then survives is not modelled.
- **The listing's order.** The room list is a map, so the insertion order of
  `Object.entries` is not kept.
- Codes.Upper: upper-cases the ASCII letters only. JavaScript's
  `toUpperCase` also maps other scripts (and e.g. `ß` to `SS`, which changes
  the length). Codes using such characters are outside the model.
- **The browser client.** `script.js` and `createPage.js` are not part of
  this model. One is a legacy client that keeps its game in the page, with
  rules of its own. The other builds HTML and toggles the theme.
- **Reaper timing.** The cleanup's one-minute timer is not modelled. The
  model covers one round at a given `now`.
- **Error messages.** The French message texts are kept as
  `Game.MoveMessage` and `Rooms.RoomMessage`. They are carried by the error
  constructors and are not compared as text.

## Findings

| source | as written | input that shows it | evidently intended | confidence | as-written member | corrected member |
|---|---|---|---|---|---|---|
| server.js:272-285 | after an accepted move, `playMove` resets `rooms[roomId]` (won or drawn game), touches it and reads `rooms[roomId].state` back with the code exactly as sent, although it looked the room up under the upper-cased code | room "ABC" with a new game. X's connection opens at sub-board 4, cell 0 with `roomId: "abc"`. `rooms["abc"]` is undefined, so reading its state throws: no acknowledgement or update is sent, and the move stays on the board with O to move. At match point, the winning move sent the same way throws at the reset and leaves the finished board with X credited and X still to move | reset, touch and read back the room under the upper-cased code, as the lookup does | high for the throw; not executed | RawCode.LowerCaseOpeningExample | Rooms.PlayMove |

`RawCode.PlayMoveAsWritten` states the general case of the finding: any
accepted move sent under a code the table does not hold throws.
`RawCode.LowerCaseContinuingMoveThrows` and
`RawCode.LowerCaseDecidingMoveThrows` state what each kind of move leaves
behind, and `RawCode.LowerCaseWinExample` is the deciding case on a
concrete table.
`RawCode.AsWrittenAgreesOnUpperCase` shows that the correction changes
nothing for codes sent in upper case. `RoomLemmas.DecidedMoveResetsRoom` is
the intended property, proved of the corrected handler. The same raw-code
`touch` in `resumeRoom` and `leaveRoom` means a lower-case code refreshes no
activity time there (`RoomLemmas.LowerCaseVisitDoesNotRefresh`). That part
is modelled as written.

=== FILE: board.dfy ===
/**
 Board rules of the nested tic-tac-toe: the cell marks, the eight winning
 lines of a 3×3 grid, and the line scan used to judge both a sub-board and
 the big board of sub-board winners.
 */
module Board {

  /** A cell of a sub-board, or an entry of the big board: '', 'X' or 'O'. */
  datatype Mark = Empty | X | O

  /** The two sides. The side to move and a bound role are never Empty. */
  type Player = m: Mark | m != Empty witness X

  /** The opponent of `p`. */
  function Other(p: Player): (q: Player)
    ensures q != p
  {
    if p == X then O else X
  }

  /** A position 0..8 in a row-major 3×3 grid. */
  type Index = i: int | 0 <= i < 9

  /** A 3×3 grid in row-major order: a sub-board, or the big board. */
  type Grid = g: seq<Mark> | |g| == 9
    witness [Empty, Empty, Empty, Empty, Empty, Empty, Empty, Empty, Empty]

  const EmptyGrid: Grid := [Empty, Empty, Empty, Empty, Empty, Empty, Empty, Empty, Empty]

  /** The eight winning index triples: three rows, three columns, two diagonals. */
  const Lines: seq<(Index, Index, Index)> :=
    [(0, 1, 2), (3, 4, 5), (6, 7, 8),
     (0, 3, 6), (1, 4, 7), (2, 5, 8),
     (0, 4, 8), (2, 4, 6)]

  /** The three values of a grid along one line. */
  type Triple = (Mark, Mark, Mark)

  /** The values of `g` along the `k`-th winning line. */
  function Line(g: Grid, k: int): Triple
    requires 0 <= k < |Lines|
  {
    (g[Lines[k].0], g[Lines[k].1], g[Lines[k].2])
  }

  /** Three equal, non-empty values. */
  predicate Completed(t: Triple) {
    t.0 != Empty && t.0 == t.1 && t.0 == t.2
  }

  /** `m` fills one of the eight lines of `g`. */
  predicate HasLine(g: Grid, m: Mark) {
    exists k :: 0 <= k < |Lines| && Line(g, k) == (m, m, m)
  }

  /** The grid has no empty cell left. */
  predicate Full(g: Grid) {
    forall i :: 0 <= i < 9 ==> g[i] != Empty
  }

  /**
   The line scan: the mark of the first completed triple, or Empty when no
   triple is completed.
   */
  function CheckWin(lines: seq<Triple>): (r: Mark)
    ensures r != Empty <==> exists k :: 0 <= k < |lines| && Completed(lines[k])
    ensures r != Empty ==>
      exists k :: 0 <= k < |lines| && Completed(lines[k]) && lines[k].0 == r &&
        forall j :: 0 <= j < k ==> !Completed(lines[j])
  {
    if |lines| == 0 then Empty
    else if Completed(lines[0]) then lines[0].0
    else
      var r := CheckWin(lines[1..]);
      assert forall k :: 1 <= k < |lines| ==> lines[k] == lines[1..][k - 1];
      r
  }

  /** The lines of a sub-board, listed literally as the small-board judge lists them. */
  function SmallLines(small: Grid): (ls: seq<Triple>)
    ensures |ls| == |Lines|
    ensures forall k :: 0 <= k < |Lines| ==> ls[k] == Line(small, k)
  {
    [(small[0], small[1], small[2]),
     (small[3], small[4], small[5]),
     (small[6], small[7], small[8]),
     (small[0], small[3], small[6]),
     (small[1], small[4], small[7]),
     (small[2], small[5], small[8]),
     (small[0], small[4], small[8]),
     (small[2], small[4], small[6])]
  }

  /** The lines of the big board, listed literally as the big-board judge lists them. */
  function BigLines(big: Grid): (ls: seq<Triple>)
    ensures |ls| == |Lines|
    ensures forall k :: 0 <= k < |Lines| ==> ls[k] == Line(big, k)
  {
    [(big[0], big[1], big[2]),
     (big[3], big[4], big[5]),
     (big[6], big[7], big[8]),
     (big[0], big[3], big[6]),
     (big[1], big[4], big[7]),
     (big[2], big[5], big[8]),
     (big[0], big[4], big[8]),
     (big[2], big[4], big[6])]
  }

  /** The winner of a sub-board: a non-empty mark exactly when some line is filled by it. */
  function CheckSmallWin(small: Grid): (r: Mark)
    ensures r != Empty <==> HasLine(small, X) || HasLine(small, O)
    ensures r != Empty ==> HasLine(small, r)
  {
    var ls := SmallLines(small);
    var r := CheckWin(ls);
    assert r != Empty ==> HasLine(small, r);
    assert HasLine(small, X) ==> Completed(ls[WitnessLine(small, X)]);
    assert HasLine(small, O) ==> Completed(ls[WitnessLine(small, O)]);
    r
  }

  /** The winner of the big board, judged exactly as a sub-board is. */
  function CheckBigWin(big: Grid): (r: Mark)
    ensures r != Empty <==> HasLine(big, X) || HasLine(big, O)
    ensures r != Empty ==> HasLine(big, r)
  {
    var ls := BigLines(big);
    var r := CheckWin(ls);
    assert r != Empty ==> HasLine(big, r);
    assert HasLine(big, X) ==> Completed(ls[WitnessLine(big, X)]);
    assert HasLine(big, O) ==> Completed(ls[WitnessLine(big, O)]);
    r
  }

  /** The index of a line of `g` that `m` fills, when there is one. */
  ghost function WitnessLine(g: Grid, m: Mark): (k: int)
    ensures HasLine(g, m) ==> 0 <= k < |Lines| && Line(g, k) == (m, m, m)
    ensures !HasLine(g, m) ==> k == 0
  {
    if HasLine(g, m) then
      var k :| 0 <= k < |Lines| && Line(g, k) == (m, m, m); k
    else 0
  }

  /** Sub-boards and the big board are judged by the same eight index triples. */
  lemma SameJudge(g: Grid)
    ensures SmallLines(g) == BigLines(g)
    ensures CheckSmallWin(g) == CheckBigWin(g)
  {
  }

  lemma EmptyGridCells()
    ensures forall i :: 0 <= i < 9 ==> EmptyGrid[i] == Empty
  {
  }

  /** A grid holding a single mark has no winner. */
  lemma SingleMarkUndecided(i: Index, m: Mark)
    ensures CheckSmallWin(EmptyGrid[i := m]) == Empty
    ensures CheckBigWin(EmptyGrid[i := m]) == Empty
  {
    var g := EmptyGrid[i := m];
    forall k | 0 <= k < |Lines|
      ensures Line(g, k) != (X, X, X) && Line(g, k) != (O, O, O)
    {
      assert Lines[k].0 != Lines[k].1;
    }
  }

  /** A grid with no mark has no winner. */
  lemma EmptyGridUndecided()
    ensures CheckSmallWin(EmptyGrid) == Empty
    ensures CheckBigWin(EmptyGrid) == Empty
  {
    assert !HasLine(EmptyGrid, X) by {
      forall k | 0 <= k < |Lines| ensures Line(EmptyGrid, k) != (X, X, X) { }
    }
    assert !HasLine(EmptyGrid, O) by {
      forall k | 0 <= k < |Lines| ensures Line(EmptyGrid, k) != (O, O, O) { }
    }
  }
}

=== FILE: codes.dfy ===
/**
 Room codes as the handlers read them: create and join trim surrounding
 white space and upper-case the code; resume, play and leave only
 upper-case it.
 */
module Codes {

  /**
   The characters JavaScript's `trim` removes: the white-space characters
   (tab, vertical tab, form feed, space, no-break space, byte-order mark and
   the space separators) and the line terminators.
   */
  predicate IsSpace(c: char) {
    || c == '\t' || c == '\U{b}' || c == '\U{c}' || c == ' ' || c == '\U{a0}' || c == '\U{feff}'
    || c == '\n' || c == '\r' || c == '\U{2028}' || c == '\U{2029}'
    || c == '\U{1680}' || ('\U{2000}' <= c <= '\U{200a}')
    || c == '\U{202f}' || c == '\U{205f}' || c == '\U{3000}'
  }

  /** Neither the first nor the last character is white space. */
  predicate Trimmed(s: string) {
    |s| > 0 ==> !IsSpace(s[0]) && !IsSpace(s[|s| - 1])
  }

  /** `s` without its leading white space. */
  function TrimStart(s: string): (r: string)
    ensures |r| <= |s| && r == s[|s| - |r|..]
    ensures forall j :: 0 <= j < |s| - |r| ==> IsSpace(s[j])
    ensures |r| > 0 ==> !IsSpace(r[0])
  {
    if |s| > 0 && IsSpace(s[0]) then TrimStart(s[1..]) else s
  }

  /** `s` without its trailing white space. */
  function TrimEnd(s: string): (r: string)
    ensures |r| <= |s| && r == s[..|r|]
    ensures forall j :: |r| <= j < |s| ==> IsSpace(s[j])
    ensures |r| > 0 ==> !IsSpace(r[|r| - 1])
  {
    if |s| > 0 && IsSpace(s[|s| - 1]) then TrimEnd(s[..|s| - 1]) else s
  }

  /** Every character is white space. */
  predicate AllSpace(t: string) {
    forall j :: 0 <= j < |t| ==> IsSpace(t[j])
  }

  /** `s` with the white space at both ends removed, and nothing else. */
  function Trim(s: string): (r: string)
    ensures Trimmed(r) && |r| <= |s|
    ensures exists a, b :: AllSpace(a) && AllSpace(b) && s == a + r + b
  {
    var t := TrimStart(s);
    var r := TrimEnd(t);
    SpaceAround(s, t, r);
    r
  }

  /** The characters the two trims drop form a white-space prefix and suffix. */
  lemma SpaceAround(s: string, t: string, r: string)
    requires |t| <= |s| && t == s[|s| - |t|..] && forall j :: 0 <= j < |s| - |t| ==> IsSpace(s[j])
    requires |r| <= |t| && r == t[..|r|] && forall j :: |r| <= j < |t| ==> IsSpace(t[j])
    ensures exists a, b :: AllSpace(a) && AllSpace(b) && s == a + r + b
  {
    var a := s[..|s| - |t|];
    var b := t[|r|..];
    assert s == a + t;
    assert t == r + b;
    assert AllSpace(a) && AllSpace(b) && s == a + r + b;
  }

  predicate IsLower(c: char) {
    'a' <= c <= 'z'
  }

  /** The upper-case form of a letter of the ASCII range; other characters are kept. */
  function UpperChar(c: char): (u: char)
    ensures !IsLower(u)
    ensures IsLower(c) ==> u as int == c as int - 32
    ensures !IsLower(c) ==> u == c
  {
    if IsLower(c) then (c as int - 32) as char else c
  }

  /** `s` with every lower-case ASCII letter upper-cased, character by character. */
  function Upper(s: string): (r: string)
    ensures |r| == |s|
    ensures forall i :: 0 <= i < |s| ==> r[i] == UpperChar(s[i])
  {
    seq(|s|, i requires 0 <= i < |s| => UpperChar(s[i]))
  }

  /** No lower-case ASCII letter occurs. */
  predicate NoLower(s: string) {
    forall i :: 0 <= i < |s| ==> !IsLower(s[i])
  }

  /** A code as create and join store it. */
  predicate Normalized(s: string) {
    Trimmed(s) && NoLower(s)
  }

  /** The code create and join use: trimmed, then upper-cased. A missing code reads as "". */
  function Normalize(raw: string): (code: string)
    ensures Normalized(code)
    ensures |code| <= |raw|
    ensures exists a, t, b :: AllSpace(a) && AllSpace(b) && Trimmed(t) && raw == a + t + b && code == Upper(t)
  {
    var t := Trim(raw);
    UpperKeepsTrimmed(t);
    Upper(t)
  }

  /** Upper-casing neither makes nor removes white space. */
  lemma UpperKeepsTrimmed(t: string)
    requires Trimmed(t)
    ensures Trimmed(Upper(t))
  {
    if |t| > 0 {
      assert !IsLower(t[0]) ==> UpperChar(t[0]) == t[0];
      assert !IsLower(t[|t| - 1]) ==> UpperChar(t[|t| - 1]) == t[|t| - 1];
    }
  }

  /** Upper-casing leaves a string without lower-case letters as it is, and only such a string. */
  lemma UpperFixes(s: string)
    ensures Upper(s) == s <==> NoLower(s)
  {
    if !NoLower(s) {
      var i :| 0 <= i < |s| && IsLower(s[i]);
      assert Upper(s)[i] != s[i];
    }
  }

  /** Trimming leaves a trimmed string as it is, and only such a string. */
  lemma TrimFixes(s: string)
    ensures Trim(s) == s <==> Trimmed(s)
  {
    if Trimmed(s) && |s| > 0 {
      assert TrimStart(s) == s;
      assert TrimEnd(s) == s;
    }
  }

  /** Normalizing changes exactly the codes that are not normalized already. */
  lemma NormalizeFixes(s: string)
    ensures Normalize(s) == s <==> Normalized(s)
  {
    if Normalized(s) {
      TrimFixes(s);
      UpperFixes(s);
    }
  }

  /** Normalizing a code twice is normalizing it once. */
  lemma NormalizeIdempotent(s: string)
    ensures Normalize(Normalize(s)) == Normalize(s)
  {
    NormalizeFixes(Normalize(s));
  }
}

=== FILE: directory.dfy ===
/**
 The public room list: one summary per room, giving the display name of
 each seated player, whether both seats are taken and the room's times.
 */
module Directory {
  import opened Options
  import opened Board
  import opened Rooms

  /** The names shown for the two seats; nothing for a free seat. */
  datatype Names = Names(x: Option<string>, o: Option<string>)

  /** What the list says about one room. */
  datatype Summary = Summary(
    players: Names,
    isFull: bool,
    createdAt: int,
    lastActivity: int,
    ttlMs: int)

  /**
   The name shown for a seat: the occupant's nickname when it has a
   non-empty one, else the role's default; nothing for a free seat.
   */
  function DisplayName(room: Room, p: Player): (name: Option<string>)
    ensures name.Some? <==> Seat(room.players, p).Some?
    ensures name.Some? ==> name.value != ""
    ensures name.Some? ==>
      var id := Seat(room.players, p).value;
      name.value == if id in room.nicknames && room.nicknames[id] != "" then room.nicknames[id]
                    else if p == X then "J1" else "J2"
  {
    match Seat(room.players, p)
    case None => None
    case Some(id) =>
      Some(NicknameOr(if id in room.nicknames then room.nicknames[id] else "", if p == X then "J1" else "J2"))
  }

  /** The last time the room was active: its activity time, or its creation time when that is unset. */
  function ShownActivity(room: Room): (t: int)
    ensures room.lastActivity != 0 ==> t == room.lastActivity
    ensures room.lastActivity == 0 ==> t == room.createdAt
  {
    if room.lastActivity != 0 then room.lastActivity else room.createdAt
  }

  function Summarize(room: Room, ttl: int): Summary {
    Summary(Names(DisplayName(room, X), DisplayName(room, O)),
            room.players.x.Some? && room.players.o.Some?,
            room.createdAt, ShownActivity(room), ttl)
  }

  /**
   getRoomsList: every room of the table, and only those, with its summary.
   A room is full exactly when both seats are bound.
   */
  function RoomsList(rooms: Table, ttl: int): (list: map<Code, Summary>)
    ensures list.Keys == rooms.Keys
    ensures forall c :: c in rooms ==>
      && (list[c].isFull <==> rooms[c].players.x.Some? && rooms[c].players.o.Some?)
      && (list[c].players.x.Some? <==> rooms[c].players.x.Some?)
      && (list[c].players.o.Some? <==> rooms[c].players.o.Some?)
      && list[c].players == Names(DisplayName(rooms[c], X), DisplayName(rooms[c], O))
      && list[c].createdAt == rooms[c].createdAt
      && list[c].lastActivity == ShownActivity(rooms[c])
      && list[c].ttlMs == ttl
  {
    map c | c in rooms :: Summarize(rooms[c], ttl)
  }

  /**
   A full room is listed as full, with both names; it stays so until a
   player leaves or disconnects: joining it is refused and the list does
   not change.
   */
  lemma FullRoomListedFull(rooms: Table, code: Code, nickname: string, caller: SocketId, now: int, ttl: int)
    requires code in rooms && rooms[code].players.x.Some? && rooms[code].players.o.Some?
    ensures RoomsList(rooms, ttl)[code].isFull
    ensures RoomsList(rooms, ttl)[code].players.x.Some? && RoomsList(rooms, ttl)[code].players.o.Some?
    ensures JoinIn(rooms, code, nickname, caller, now) == Step(rooms, Refused(RoomFull))
  {
  }

  /**
   After a join the room is listed with the joiner's name on the seat it
   took: the nickname it gave, or the seat's default when it gave none.
   */
  lemma JoinShowsName(rooms: Table, code: Code, nickname: string, caller: SocketId, now: int, ttl: int)
    requires JoinIn(rooms, code, nickname, caller, now).reply.Seated?
    ensures var st := JoinIn(rooms, code, nickname, caller, now);
      var role := st.reply.role;
      && code in RoomsList(st.rooms, ttl)
      && (if role == X then RoomsList(st.rooms, ttl)[code].players.x else RoomsList(st.rooms, ttl)[code].players.o)
         == Some(if nickname != "" then nickname else if role == X then "J1" else "J2")
  {
    var st := JoinIn(rooms, code, nickname, caller, now);
    var role := st.reply.role;
    assert DisplayName(st.rooms[code], role).Some?;
  }
}

=== FILE: game.dfy ===
/**
 One game of a room: the state the server keeps, the fresh state a room
 starts with and returns to after a win or a draw, and the move transition
 of the playMove handler lifted into a pure function that either rejects the
 move with a reason or returns the next state and the outcome.
 */
module Game {
  import opened Board

  /** Games won by each side; kept across the resets of one room. */
  datatype Score = Score(x: nat, o: nat)

  /** One more game won by `p`, the other side's count unchanged. */
  function Credit(s: Score, p: Player): (t: Score)
    ensures p == X ==> t.x == s.x + 1 && t.o == s.o
    ensures p == O ==> t.o == s.o + 1 && t.x == s.x
  {
    if p == X then s.(x := s.x + 1) else s.(o := s.o + 1)
  }

  /** The nine sub-boards, in row-major order of the big board. */
  type Boards = b: seq<Grid> | |b| == 9
    witness [EmptyGrid, EmptyGrid, EmptyGrid, EmptyGrid, EmptyGrid,
             EmptyGrid, EmptyGrid, EmptyGrid, EmptyGrid]

  /**
   The game state of a room. `lastPlayed` is the sub-board the next mover is
   sent to unless `jokerMode` lets them play anywhere; `completedCells` lists
   the won sub-boards in the order they were won; `bigBoard` holds the winner
   of each sub-board.
   */
  datatype State = State(
    turn: Player,
    lastPlayed: int,
    jokerMode: bool,
    completedCells: seq<int>,
    smallBoards: Boards,
    bigBoard: Grid,
    score: Score)

  /** Why a move is refused, in the order the checks are made. */
  datatype MoveError = NotYourTurn | InvalidMove | WrongSubBoard | SubBoardWon | CellTaken

  /** The reason string sent back to the caller. */
  function MoveMessage(e: MoveError): string {
    match e
    case NotYourTurn => "Pas votre tour."
    case InvalidMove => "Coup invalide."
    case WrongSubBoard => "Mauvaise sous-grille."
    case SubBoardWon => "Sous-grille déjà gagnée."
    case CellTaken => "Case déjà prise."
  }

  /** How an accepted move ended: the game goes on, or was won, or drawn (and reset). */
  datatype Outcome = Continue | Win(winner: Player) | Draw

  datatype MoveResult = Rejected(error: MoveError) | Accepted(state: State, outcome: Outcome)

  /**
   What a state records about its boards: each big-board entry is the
   current winner of its sub-board; `completedCells` lists, without
   repetition, exactly the sub-boards with a winner; and when the next mover
   is not free, the sub-board they are sent to is an existing, undecided one.
   */
  ghost predicate Recorded(st: State) {
    && (forall i :: 0 <= i < 9 ==> st.bigBoard[i] == CheckSmallWin(st.smallBoards[i]))
    && (forall k :: 0 <= k < |st.completedCells| ==>
          0 <= st.completedCells[k] < 9 && st.bigBoard[st.completedCells[k]] != Empty)
    && (forall i :: 0 <= i < 9 && st.bigBoard[i] != Empty ==> i in st.completedCells)
    && (forall k, l :: 0 <= k < l < |st.completedCells| ==>
          st.completedCells[k] != st.completedCells[l])
    && (!st.jokerMode ==> 0 <= st.lastPlayed < 9 && st.bigBoard[st.lastPlayed] == Empty)
  }

  /** The big board is neither won nor full: the game is still in progress. */
  ghost predicate InProgress(big: Grid) {
    !HasLine(big, X) && !HasLine(big, O) && !AllDecided(big)
  }

  /** The invariant every state of a room keeps between two moves. */
  ghost predicate Consistent(st: State) {
    Recorded(st) && InProgress(st.bigBoard)
  }

  /** Every cell and every big-board entry of the state is empty. */
  ghost predicate BoardsCleared(st: State) {
    && (forall i, j :: 0 <= i < 9 && 0 <= j < 9 ==> st.smallBoards[i][j] == Empty)
    && (forall i :: 0 <= i < 9 ==> st.bigBoard[i] == Empty)
    && st.completedCells == []
  }

  /** The state of a new room: X to move, free choice of sub-board, nothing won. */
  function NewEmptyState(): (st: State)
    ensures BoardsCleared(st) && Consistent(st)
    ensures st.turn == X && st.jokerMode && st.lastPlayed == 0
    ensures st.score == Score(0, 0)
  {
    EmptyGridUndecided();
    assert EmptyGrid[0] == Empty;
    State(X, 0, true, [],
          [EmptyGrid, EmptyGrid, EmptyGrid, EmptyGrid, EmptyGrid,
           EmptyGrid, EmptyGrid, EmptyGrid, EmptyGrid],
          EmptyGrid, Score(0, 0))
  }

  /** A fresh game that carries `score` forward. */
  function Reset(score: Score): (st: State)
    ensures BoardsCleared(st) && Consistent(st)
    ensures st.turn == X && st.jokerMode && st.lastPlayed == 0
    ensures st.score == score
  {
    NewEmptyState().(score := score)
  }

  /** An index the handler accepts: neither below 0 nor above 8. */
  predicate InRange(i: int) {
    !(i < 0 || i > 8)
  }

  /** Every one of the five move checks passes. */
  predicate Legal(st: State, role: Player, big: int, small: int) {
    && st.turn == role
    && 0 <= big < 9 && 0 <= small < 9
    && (st.jokerMode || st.lastPlayed == big)
    && st.bigBoard[big] == Empty
    && st.smallBoards[big][small] == Empty
  }

  /** Every big-board entry is decided. */
  predicate AllDecided(big: Grid) {
    forall i :: 0 <= i < 9 ==> big[i] != Empty
  }

  /**
   The move written into the state, before the big board is judged: the cell
   takes the mover's mark, a sub-board won by it is recorded, and the next
   mover's target and freedom are set.
   */
  function Place(st: State, role: Player, big: int, small: int): (p: State)
    requires 0 <= big < 9 && 0 <= small < 9
    ensures p.smallBoards[big][small] == role
    ensures forall i, j :: 0 <= i < 9 && 0 <= j < 9 && (i != big || j != small) ==>
      p.smallBoards[i][j] == st.smallBoards[i][j]
    ensures forall i :: 0 <= i < 9 && i != big ==> p.smallBoards[i] == st.smallBoards[i]
    ensures forall i :: 0 <= i < 9 && i != big ==> p.bigBoard[i] == st.bigBoard[i]
    ensures p.bigBoard[big] ==
      (if CheckSmallWin(p.smallBoards[big]) != Empty then CheckSmallWin(p.smallBoards[big])
       else st.bigBoard[big])
    ensures p.jokerMode <==> CheckSmallWin(p.smallBoards[big]) != Empty || small in st.completedCells
    ensures p.completedCells ==
      (if CheckSmallWin(p.smallBoards[big]) != Empty && big !in st.completedCells
       then st.completedCells + [big] else st.completedCells)
    ensures p.lastPlayed == small
    ensures p.turn == st.turn && p.score == st.score
  {
    var cell := st.smallBoards[big][small := role];
    var boards := st.smallBoards[big := cell];
    var smallWinner := CheckSmallWin(cell);
    if smallWinner != Empty then
      st.(smallBoards := boards,
          bigBoard := st.bigBoard[big := smallWinner],
          completedCells := if big in st.completedCells then st.completedCells
                            else st.completedCells + [big],
          jokerMode := true,
          lastPlayed := small)
    else
      st.(smallBoards := boards,
          jokerMode := small in st.completedCells,
          lastPlayed := small)
  }

  /**
   Judging the big board after a move: a winner scores one and the game
   restarts; a full big board without a winner is a draw and the game
   restarts with the score kept; otherwise the turn passes.
   */
  function Settle(p: State): (r: (State, Outcome))
    ensures r.1.Win? <==> HasLine(p.bigBoard, X) || HasLine(p.bigBoard, O)
    ensures r.1.Win? ==> HasLine(p.bigBoard, r.1.winner) && r.0 == Reset(Credit(p.score, r.1.winner))
    ensures r.1 == Draw <==> !HasLine(p.bigBoard, X) && !HasLine(p.bigBoard, O) && AllDecided(p.bigBoard)
    ensures r.1 == Draw ==> r.0 == Reset(p.score)
    ensures r.1 == Continue ==> r.0 == p.(turn := Other(p.turn))
  {
    var winner := CheckBigWin(p.bigBoard);
    if winner != Empty then
      (Reset(Credit(p.score, winner)), Win(winner))
    else if AllDecided(p.bigBoard) then
      (Reset(p.score), Draw)
    else
      (p.(turn := Other(p.turn)), Continue)
  }

  /**
   The move transition. The checks run in a fixed order and the first that
   fails decides the reason; a move that passes them all is placed and the
   big board judged.
   */
  function ApplyMove(st: State, role: Player, big: int, small: int): (r: MoveResult)
    ensures r.Accepted? <==> Legal(st, role, big, small)
    ensures st.turn != role ==> r == Rejected(NotYourTurn)
    ensures st.turn == role && !(InRange(big) && InRange(small)) ==> r == Rejected(InvalidMove)
    ensures st.turn == role && InRange(big) && InRange(small) && !st.jokerMode && st.lastPlayed != big ==>
      r == Rejected(WrongSubBoard)
    ensures st.turn == role && InRange(big) && InRange(small) && (st.jokerMode || st.lastPlayed == big) ==>
      (st.bigBoard[big] != Empty ==> r == Rejected(SubBoardWon)) &&
      (st.bigBoard[big] == Empty && st.smallBoards[big][small] != Empty ==> r == Rejected(CellTaken))
    ensures r.Accepted? ==> (r.state, r.outcome) == Settle(Place(st, role, big, small))
  {
    if st.turn != role then Rejected(NotYourTurn)
    else if big < 0 || big > 8 || small < 0 || small > 8 then Rejected(InvalidMove)
    else if !(st.jokerMode || st.lastPlayed == big) then Rejected(WrongSubBoard)
    else if st.bigBoard[big] != Empty then Rejected(SubBoardWon)
    else if st.smallBoards[big][small] != Empty then Rejected(CellTaken)
    else
      var (next, outcome) := Settle(Place(st, role, big, small));
      Accepted(next, outcome)
  }
}

=== FILE: game_lemmas.dfy ===
/**
 Properties of the move transition: the board invariant it preserves, the
 one cell it writes, the next mover's target, the terminal resets, and the
 dead end a drawn sub-board creates.
 */
module GameLemmas {
  import opened Board
  import opened Game

  /**
   Writing one mark into a grid with no completed line can only complete a
   line of that mark.
   */
  lemma {:induction false} NewLineIsMovers(g: Grid, i: Index, m: Player, w: Mark)
    requires !HasLine(g, X) && !HasLine(g, O)
    requires w != Empty && HasLine(g[i := m], w)
    ensures w == m
  {
    var g' := g[i := m];
    forall k | 0 <= k < |Lines| && Lines[k].0 != i && Lines[k].1 != i && Lines[k].2 != i
      ensures Line(g', k) == Line(g, k)
    {
    }
    var k :| 0 <= k < |Lines| && Line(g', k) == (w, w, w);
    assert Lines[k].0 == i || Lines[k].1 == i || Lines[k].2 == i;
  }

  /** Placing a legal move keeps each big-board entry equal to its sub-board's winner. */
  lemma PlaceKeepsWinners(st: State, role: Player, big: int, small: int)
    requires Recorded(st) && Legal(st, role, big, small)
    ensures var p := Place(st, role, big, small);
      forall i :: 0 <= i < 9 ==> p.bigBoard[i] == CheckSmallWin(p.smallBoards[i])
  {
    var p := Place(st, role, big, small);
    forall i | 0 <= i < 9 ensures p.bigBoard[i] == CheckSmallWin(p.smallBoards[i]) {
      if i != big {
        assert p.smallBoards[i] == st.smallBoards[i];
      }
    }
  }

  /** Placing a legal move keeps `completedCells` the repetition-free list of won sub-boards. */
  lemma PlaceKeepsCompleted(st: State, role: Player, big: int, small: int)
    requires Recorded(st) && Legal(st, role, big, small)
    ensures var p := Place(st, role, big, small);
      && (forall k :: 0 <= k < |p.completedCells| ==>
            0 <= p.completedCells[k] < 9 && p.bigBoard[p.completedCells[k]] != Empty)
      && (forall i :: 0 <= i < 9 && p.bigBoard[i] != Empty ==> i in p.completedCells)
      && (forall k, l :: 0 <= k < l < |p.completedCells| ==>
            p.completedCells[k] != p.completedCells[l])
  {
    var p := Place(st, role, big, small);
    assert big !in st.completedCells;
    var w := CheckSmallWin(p.smallBoards[big]);
    if w != Empty {
      assert p.bigBoard == st.bigBoard[big := w];
      ListedAfterWin(st.completedCells, st.bigBoard, big, w);
    } else {
      assert p.completedCells == st.completedCells;
      assert p.bigBoard == st.bigBoard;
    }
  }

  /** Appending a newly won sub-board keeps the completed list exact and repetition-free. */
  lemma ListedAfterWin(cc: seq<int>, bb: Grid, big: Index, w: Mark)
    requires forall k :: 0 <= k < |cc| ==> 0 <= cc[k] < 9 && bb[cc[k]] != Empty
    requires forall i :: 0 <= i < 9 && bb[i] != Empty ==> i in cc
    requires forall k, l :: 0 <= k < l < |cc| ==> cc[k] != cc[l]
    requires big !in cc && w != Empty
    ensures var cc', bb' := cc + [big], bb[big := w];
      && (forall k :: 0 <= k < |cc'| ==> 0 <= cc'[k] < 9 && bb'[cc'[k]] != Empty)
      && (forall i :: 0 <= i < 9 && bb'[i] != Empty ==> i in cc')
      && (forall k, l :: 0 <= k < l < |cc'| ==> cc'[k] != cc'[l])
  {
  }

  /** Placing a legal move sends the opponent, when not free, to an undecided sub-board. */
  lemma PlaceKeepsTarget(st: State, role: Player, big: int, small: int)
    requires Recorded(st) && Legal(st, role, big, small)
    ensures var p := Place(st, role, big, small);
      !p.jokerMode ==> 0 <= p.lastPlayed < 9 && p.bigBoard[p.lastPlayed] == Empty
  {
    var p := Place(st, role, big, small);
    if !p.jokerMode {
      assert small !in st.completedCells;
      assert st.bigBoard[small] == Empty;
    }
  }

  /** Placing a legal move keeps what the state records about its boards. */
  lemma PlaceKeepsRecord(st: State, role: Player, big: int, small: int)
    requires Recorded(st) && Legal(st, role, big, small)
    ensures Recorded(Place(st, role, big, small))
  {
    PlaceKeepsWinners(st, role, big, small);
    PlaceKeepsCompleted(st, role, big, small);
    PlaceKeepsTarget(st, role, big, small);
  }

  /** Every accepted move keeps the invariant of the room's state. */
  lemma MovePreservesConsistent(st: State, role: Player, big: int, small: int)
    requires Consistent(st)
    requires ApplyMove(st, role, big, small).Accepted?
    ensures Consistent(ApplyMove(st, role, big, small).state)
  {
    PlaceKeepsRecord(st, role, big, small);
  }

  /**
   A move that goes on turns exactly one empty cell into the mover's mark;
   every other cell, and every decided sub-board, is left as it was.
   */
  lemma ContinueWritesOneCell(st: State, role: Player, big: int, small: int)
    requires ApplyMove(st, role, big, small).Accepted?
    requires ApplyMove(st, role, big, small).outcome == Continue
    ensures var s' := ApplyMove(st, role, big, small).state;
      && 0 <= big < 9 && 0 <= small < 9
      && st.smallBoards[big][small] == Empty
      && s'.smallBoards[big][small] == role
      && (forall i, j :: 0 <= i < 9 && 0 <= j < 9 && (i != big || j != small) ==>
            s'.smallBoards[i][j] == st.smallBoards[i][j])
      && (forall i :: 0 <= i < 9 && st.bigBoard[i] != Empty ==>
            s'.bigBoard[i] == st.bigBoard[i] && s'.smallBoards[i] == st.smallBoards[i])
  {
  }

  /**
   After a move that goes on: the turn passes, the opponent is sent to the
   sub-board matching the cell just played, and they may play anywhere
   exactly when the move won its own sub-board or that target is decided.
   */
  lemma NextMoverRule(st: State, role: Player, big: int, small: int)
    requires Consistent(st)
    requires ApplyMove(st, role, big, small).Accepted?
    requires ApplyMove(st, role, big, small).outcome == Continue
    ensures var s' := ApplyMove(st, role, big, small).state;
      && s'.turn == Other(role)
      && s'.lastPlayed == small
      && (CheckSmallWin(s'.smallBoards[big]) != Empty ==> s'.jokerMode)
      && (s'.jokerMode <==> s'.bigBoard[big] != Empty || s'.bigBoard[small] != Empty)
  {
    var p := Place(st, role, big, small);
    if CheckSmallWin(p.smallBoards[big]) == Empty {
      assert p.bigBoard[big] == Empty;
      assert small in st.completedCells <==> st.bigBoard[small] != Empty;
    }
  }

  /**
   A winning move scores exactly one for the winner, who is the mover, and
   the state becomes a fresh game carrying the score.
   */
  lemma WinScoresMover(st: State, role: Player, big: int, small: int, w: Player)
    requires Consistent(st)
    requires ApplyMove(st, role, big, small).Accepted?
    requires ApplyMove(st, role, big, small).outcome == Win(w)
    ensures w == role
    ensures var s' := ApplyMove(st, role, big, small).state;
      && s'.score == Credit(st.score, role)
      && BoardsCleared(s') && s'.turn == X && s'.jokerMode && s'.lastPlayed == 0
  {
    var p := Place(st, role, big, small);
    var cell := st.smallBoards[big];
    assert p.smallBoards[big] == cell[small := role];
    var sw := CheckSmallWin(p.smallBoards[big]);
    assert HasLine(p.bigBoard, w);
    assert st.bigBoard[big] == Empty;
    assert !HasLine(cell, X) && !HasLine(cell, O);
    NewLineIsMovers(cell, small, role, sw);
    assert p.bigBoard == st.bigBoard[big := role];
    NewLineIsMovers(st.bigBoard, big, role, w);
  }

  /**
   A draw keeps the score and resets the boards; it happens only when, after
   the move, all nine sub-boards have a winner.
   */
  lemma DrawNeedsAllWon(st: State, role: Player, big: int, small: int)
    requires Consistent(st)
    requires ApplyMove(st, role, big, small).Accepted?
    requires ApplyMove(st, role, big, small).outcome == Draw
    ensures var s' := ApplyMove(st, role, big, small).state;
      && s'.score == st.score
      && BoardsCleared(s') && s'.turn == X && s'.jokerMode && s'.lastPlayed == 0
    ensures forall i :: 0 <= i < 9 ==>
      CheckSmallWin(Place(st, role, big, small).smallBoards[i]) != Empty
  {
    PlaceKeepsRecord(st, role, big, small);
  }

  /**
   A sub-board that is full without a winner stays so through every move,
   so a game holding one can never end in a draw.
   */
  lemma DeadSubBoardBlocksDraw(st: State, role: Player, big: int, small: int, d: Index)
    requires Full(st.smallBoards[d]) && st.bigBoard[d] == Empty
    requires ApplyMove(st, role, big, small).Accepted?
    ensures ApplyMove(st, role, big, small).outcome != Draw
    ensures ApplyMove(st, role, big, small).outcome == Continue ==>
      var s' := ApplyMove(st, role, big, small).state;
      Full(s'.smallBoards[d]) && s'.bigBoard[d] == Empty
  {
    assert big != d;
    var p := Place(st, role, big, small);
    assert p.smallBoards[d] == st.smallBoards[d];
    assert p.bigBoard[d] == Empty;
  }

  /**
   A mover sent to a full sub-board without a free choice cannot move: every
   in-range move is refused, as the wrong sub-board or as a taken cell.
   */
  lemma FullTargetRejectsAll(st: State, big: int, small: int)
    requires !st.jokerMode && 0 <= st.lastPlayed < 9
    requires Full(st.smallBoards[st.lastPlayed]) && st.bigBoard[st.lastPlayed] == Empty
    requires InRange(big) && InRange(small)
    ensures ApplyMove(st, st.turn, big, small) ==
      Rejected(if big == st.lastPlayed then CellTaken else WrongSubBoard)
    ensures ApplyMove(st, Other(st.turn), big, small) == Rejected(NotYourTurn)
  {
  }

  /**
   A legal move that completes no line in its sub-board, played while the
   big board is in progress, goes on: the big board and the completed list
   stay as they were and the turn passes.
   */
  lemma QuietMove(st: State, role: Player, big: int, small: int)
    requires Legal(st, role, big, small) && InProgress(st.bigBoard)
    requires CheckSmallWin(st.smallBoards[big][small := role]) == Empty
    ensures ApplyMove(st, role, big, small).Accepted?
    ensures var s' := ApplyMove(st, role, big, small).state;
      && ApplyMove(st, role, big, small).outcome == Continue
      && s'.bigBoard == st.bigBoard && s'.completedCells == st.completedCells
      && s'.smallBoards == st.smallBoards[big := st.smallBoards[big][small := role]]
      && s'.jokerMode == (small in st.completedCells)
      && s'.lastPlayed == small && s'.turn == Other(role) && s'.score == st.score
  {
    var p := Place(st, role, big, small);
    assert p.bigBoard == st.bigBoard;
  }
}

=== FILE: game_scenarios.dfy ===
/**
 Concrete games: an opening, a sub-board win, and the dead end reached when
 a sub-board fills up without a winner and the next mover is sent there.
 */
module GameScenarios {
  import opened Board
  import opened Game
  import opened GameLemmas

  /** A sub-board filled without a line: X O X / X O O / O X X. */
  const DrawnGrid: Grid := [X, O, X, X, O, O, O, X, X]

  /** The same sub-board with its top-left cell still open. */
  const AlmostDrawnGrid: Grid := [Empty, O, X, X, O, O, O, X, X]

  /** X to move, sent to sub-board 0, whose only open cell is its own cell 0. */
  const DeadEndEve: State :=
    State(X, 0, false, [],
          [AlmostDrawnGrid, EmptyGrid, EmptyGrid, EmptyGrid, EmptyGrid,
           EmptyGrid, EmptyGrid, EmptyGrid, EmptyGrid],
          EmptyGrid, Score(0, 0))

  lemma DrawnGridUndecided()
    ensures CheckSmallWin(DrawnGrid) == Empty && Full(DrawnGrid)
    ensures CheckSmallWin(AlmostDrawnGrid) == Empty
  {
    assert !HasLine(DrawnGrid, X) && !HasLine(DrawnGrid, O) by {
      forall k | 0 <= k < |Lines|
        ensures Line(DrawnGrid, k) != (X, X, X) && Line(DrawnGrid, k) != (O, O, O)
      {
      }
    }
    assert !HasLine(AlmostDrawnGrid, X) && !HasLine(AlmostDrawnGrid, O) by {
      forall k | 0 <= k < |Lines|
        ensures Line(AlmostDrawnGrid, k) != (X, X, X) && Line(AlmostDrawnGrid, k) != (O, O, O)
      {
      }
    }
  }

  /**
   The mover is sent to sub-board `t`, whose only open cell is its own cell
   `t`, and filling it completes no line: the move is accepted, sends the
   opponent back to `t`, which is now full but not won, without a free
   choice, and every move by either side is refused from then on.
   */
  lemma DeadEnd(st: State, t: Index)
    requires Consistent(st) && !st.jokerMode && st.lastPlayed == t
    requires st.smallBoards[t][t] == Empty
    requires forall j :: 0 <= j < 9 && j != t ==> st.smallBoards[t][j] != Empty
    requires CheckSmallWin(st.smallBoards[t][t := st.turn]) == Empty
    ensures ApplyMove(st, st.turn, t, t).Accepted?
    ensures var s := ApplyMove(st, st.turn, t, t).state;
      && ApplyMove(st, st.turn, t, t).outcome == Continue
      && Consistent(s)
      && s.turn == Other(st.turn) && !s.jokerMode && s.lastPlayed == t
      && Full(s.smallBoards[t]) && s.bigBoard[t] == Empty
      && forall role: Player, big: int, small: int :: ApplyMove(s, role, big, small).Rejected?
  {
    FillLastCell(st, t);
    MovePreservesConsistent(st, st.turn, t, t);
    Stuck(ApplyMove(st, st.turn, t, t).state);
  }

  /**
   Filling the last open cell of the forced sub-board, its own cell `t`,
   without a line: the opponent is sent back to it, full and undecided.
   */
  lemma FillLastCell(st: State, t: Index)
    requires Consistent(st) && !st.jokerMode && st.lastPlayed == t
    requires st.smallBoards[t][t] == Empty
    requires forall j :: 0 <= j < 9 && j != t ==> st.smallBoards[t][j] != Empty
    requires CheckSmallWin(st.smallBoards[t][t := st.turn]) == Empty
    ensures ApplyMove(st, st.turn, t, t).Accepted?
    ensures var s := ApplyMove(st, st.turn, t, t).state;
      && ApplyMove(st, st.turn, t, t).outcome == Continue
      && s.turn == Other(st.turn) && !s.jokerMode && s.lastPlayed == t
      && Full(s.smallBoards[t]) && s.bigBoard[t] == Empty
  {
    QuietMove(st, st.turn, t, t);
    assert t !in st.completedCells;
    var s := ApplyMove(st, st.turn, t, t).state;
    assert s.smallBoards[t] == st.smallBoards[t][t := st.turn];
  }

  /**
   A mover sent to a sub-board that is full without a winner, with no free
   choice, is stuck: every move by either side is refused.
   */
  lemma Stuck(s: State)
    requires !s.jokerMode && 0 <= s.lastPlayed < 9
    requires Full(s.smallBoards[s.lastPlayed]) && s.bigBoard[s.lastPlayed] == Empty
    ensures forall role: Player, big: int, small: int :: ApplyMove(s, role, big, small).Rejected?
  {
    forall role: Player, big: int, small: int
      ensures ApplyMove(s, role, big, small).Rejected?
    {
      if role == s.turn && InRange(big) && InRange(small) {
        FullTargetRejectsAll(s, big, small);
      }
    }
  }

  /** The boards of the position before the dead end, sub-board by sub-board. */
  lemma DeadEndEveBoards()
    ensures DeadEndEve.smallBoards[0] == AlmostDrawnGrid
    ensures forall i :: 1 <= i < 9 ==> DeadEndEve.smallBoards[i] == EmptyGrid
    ensures DeadEndEve.bigBoard == EmptyGrid
  {
    assert DeadEndEve.smallBoards == [AlmostDrawnGrid] + seq(8, _ => EmptyGrid);
  }

  /** No sub-board of that position has a winner, as its big board records. */
  lemma DeadEndEveUndecided()
    ensures forall i :: 0 <= i < 9 ==>
      DeadEndEve.bigBoard[i] == Empty && DeadEndEve.bigBoard[i] == CheckSmallWin(DeadEndEve.smallBoards[i])
  {
    DeadEndEveBoards();
    AlmostDrawnUndecided(DeadEndEve.smallBoards, DeadEndEve.bigBoard);
  }

  /** Sub-board 0 almost drawn and the rest empty: no sub-board has a winner. */
  lemma AlmostDrawnUndecided(boards: Boards, big: Grid)
    requires boards[0] == AlmostDrawnGrid && big == EmptyGrid
    requires forall i :: 1 <= i < 9 ==> boards[i] == EmptyGrid
    ensures forall i :: 0 <= i < 9 ==> big[i] == Empty && big[i] == CheckSmallWin(boards[i])
  {
    EmptyGridCells();
    forall i | 0 <= i < 9
      ensures big[i] == Empty && big[i] == CheckSmallWin(boards[i])
    {
      if i == 0 {
        DrawnGridUndecided();
      } else {
        EmptyGridUndecided();
      }
    }
  }

  lemma DeadEndEveConsistent()
    ensures Consistent(DeadEndEve)
  {
    DeadEndEveUndecided();
    assert InProgress(DeadEndEve.bigBoard) by {
      assert DeadEndEve.bigBoard == EmptyGrid;
      EmptyGridUndecided();
    }
  }

  /** The dead end is reached from a state that keeps the invariant. */
  lemma DeadEndExists()
    ensures Consistent(DeadEndEve) && !DeadEndEve.jokerMode && DeadEndEve.lastPlayed == 0
    ensures DeadEndEve.smallBoards[0] == AlmostDrawnGrid
    ensures AlmostDrawnGrid[0] == Empty
    ensures forall j :: 0 < j < 9 ==> AlmostDrawnGrid[j] != Empty
    ensures CheckSmallWin(AlmostDrawnGrid[0 := DeadEndEve.turn]) == Empty
  {
    DeadEndEveConsistent();
    DeadEndEveBoards();
    AlmostDrawnFillsUndecided();
  }

  /** Filling the open cell of the almost-drawn sub-board with X completes no line. */
  lemma AlmostDrawnFillsUndecided()
    ensures AlmostDrawnGrid[0] == Empty
    ensures forall j :: 0 < j < 9 ==> AlmostDrawnGrid[j] != Empty
    ensures CheckSmallWin(AlmostDrawnGrid[0 := X]) == Empty
  {
    DrawnGridUndecided();
    assert AlmostDrawnGrid[0 := X] == DrawnGrid;
  }

  /**
   An opening: X plays cell 0 of the centre
   sub-board, so O is sent to sub-board 0; O is refused in sub-board 1 and
   accepted in cell 4 of sub-board 0.
   */
  lemma Opening()
    ensures ApplyMove(NewEmptyState(), X, 4, 0).Accepted?
    ensures var s1 := ApplyMove(NewEmptyState(), X, 4, 0).state;
      && ApplyMove(NewEmptyState(), X, 4, 0).outcome == Continue
      && s1.turn == O && !s1.jokerMode && s1.lastPlayed == 0
      && ApplyMove(s1, O, 1, 0) == Rejected(WrongSubBoard)
      && ApplyMove(s1, O, 0, 4).Accepted?
      && ApplyMove(s1, O, 0, 4).outcome == Continue
  {
    var s0 := NewEmptyState();
    SingleMarkUndecided(0, X);
    QuietMove(s0, X, 4, 0);
    var s1 := ApplyMove(s0, X, 4, 0).state;
    assert s1.smallBoards[0] == EmptyGrid;
    MovePreservesConsistent(s0, X, 4, 0);
    SingleMarkUndecided(4, O);
    QuietMove(s1, O, 0, 4);
  }

  /** X holds the first two cells of sub-board 0 and is sent there. */
  const TopRowEve: State :=
    State(X, 0, false, [],
          [[X, X, Empty, O, O, Empty, Empty, Empty, Empty],
           EmptyGrid, EmptyGrid, EmptyGrid, EmptyGrid,
           EmptyGrid, EmptyGrid, EmptyGrid, EmptyGrid],
          EmptyGrid, Score(0, 0))

  /**
   Completing the top row of sub-board 0 records X as its winner, lists it
   as completed and gives O a free choice, although the cell played sends O
   to sub-board 2, which is undecided.
   */
  lemma TopRowWin()
    ensures ApplyMove(TopRowEve, X, 0, 2).Accepted?
    ensures var s := ApplyMove(TopRowEve, X, 0, 2).state;
      && ApplyMove(TopRowEve, X, 0, 2).outcome == Continue
      && s.bigBoard[0] == X && s.completedCells == [0]
      && s.jokerMode && s.lastPlayed == 2 && s.turn == O
  {
    var st := TopRowEve;
    var won: Grid := [X, X, X, O, O, Empty, Empty, Empty, Empty];
    assert st.smallBoards[0][2 := X] == won;
    assert st.bigBoard == EmptyGrid;
    assert Legal(st, X, 0, 2);
    assert CheckSmallWin(won) == X by {
      assert SmallLines(won)[0] == (X, X, X);
    }
    var p := Place(st, X, 0, 2);
    assert p.bigBoard == EmptyGrid[0 := X];
    SingleMarkUndecided(0, X);
    assert !AllDecided(p.bigBoard) by { assert p.bigBoard[1] == Empty; }
  }
}

=== FILE: options.dfy ===
/** A value that may be absent: the source's `null`. */
module Options {

  datatype Option<+T> = None | Some(value: T)
}

=== FILE: raw_code.dfy ===
/**
 playMove as written: the room is looked up under the upper-cased code, but
 the reset after a decided game, the activity refresh and the read of the
 new state for the broadcast index the table with the code exactly as sent.
 When the two differ (a code sent in lower case), every accepted move reads
 a missing room and the handler throws before it acknowledges: a move that
 goes on is left on the board unannounced, and a deciding move leaves the
 decided game on the board. `Rooms.PlayMove` is the corrected handler,
 which uses the upper-cased code throughout.
 */
module RawCode {
  import opened Options
  import opened Board
  import opened Game
  import opened GameLemmas
  import opened Rooms
  import Codes
  import GameScenarios

  /** The handler either completes with a step, or throws with the table as far as it had changed it. */
  datatype Handled = Completed(step: Step) | Threw(rooms: Table)

  /**
   The game after a deciding move but before the reset: the move placed, the
   winner credited, the turn not passed.
   */
  function Decided(st: State, role: Player, big: Index, small: Index, outcome: Outcome): (d: State)
    ensures d.smallBoards[big][small] == role
    ensures d.turn == st.turn
    ensures outcome.Win? ==> d.score == Credit(st.score, outcome.winner)
    ensures !outcome.Win? ==> d.score == st.score
  {
    var played := Place(st, role, big, small);
    if outcome.Win? then played.(score := Credit(played.score, outcome.winner)) else played
  }

  /**
   The handler as written. It throws exactly when an accepted move was sent
   under a code the table does not hold; the table it leaves then has the
   move written into the room it was played in, and no other room changed.
   */
  function PlayMoveAsWritten(rooms: Table, requested: string, caller: SocketId, role: Player,
                             big: int, small: int, now: int): (h: Handled)
    ensures var code := Codes.Upper(requested);
      h.Threw? <==>
        && code in rooms && RoomPlayerOf(rooms[code], caller) == Some(role)
        && ApplyMove(rooms[code].state, role, big, small).Accepted?
        && requested !in rooms
    ensures var code := Codes.Upper(requested);
      h.Threw? ==>
        && h.rooms.Keys == rooms.Keys
        && (forall c :: c in rooms && c != code ==> h.rooms[c] == rooms[c])
        && h.rooms[code].state.smallBoards[big][small] == role
        && h.rooms[code].players == rooms[code].players
  {
    var code := Codes.Upper(requested);
    if code !in rooms then Completed(Step(rooms, Refused(NotFound)))
    else
      var room := rooms[code];
      if RoomPlayerOf(room, caller) != Some(role) then Completed(Step(rooms, Refused(Unauthorized)))
      else
        match ApplyMove(room.state, role, big, small)
        case Rejected(e) => Completed(Step(rooms, Refused(Illegal(e))))
        case Accepted(next, outcome) =>
          if outcome == Continue then
            var written := rooms[code := room.(state := next)];
            if requested !in written then Threw(written)
            else Completed(Step(Touch(written, requested, now), Moved(outcome)))
          else
            FinishAsWritten(rooms, code, requested, Decided(room.state, role, big, small, outcome), outcome, now)
  }

  /**
   The end of a deciding move as written: the decided game is stored under
   `code`; then the room under the code as sent is reset with the decided
   score and touched, which throws when no room is stored under that code.
   */
  function FinishAsWritten(rooms: Table, code: Code, requested: string, decided: State,
                           outcome: Outcome, now: int): (h: Handled)
    requires code in rooms
    ensures h.Threw? <==> requested !in rooms && requested != code
    ensures h.Threw? ==> h.rooms == rooms[code := rooms[code].(state := decided)]
    ensures requested == code ==>
      h == Completed(Step(Touch(rooms[code := rooms[code].(state := Reset(decided.score))], code, now), Moved(outcome)))
  {
    var written := rooms[code := rooms[code].(state := decided)];
    if requested !in written then Threw(written)
    else
      var reset := written[requested := written[requested].(state := Reset(decided.score))];
      if requested == code then
        assert reset == rooms[code := rooms[code].(state := Reset(decided.score))];
        Completed(Step(Touch(reset, requested, now), Moved(outcome)))
      else
        Completed(Step(Touch(reset, requested, now), Moved(outcome)))
  }

  /** The settled game after a deciding move is the decided game, reset with its score. */
  lemma SettleIsDecidedReset(st: State, role: Player, big: int, small: int)
    requires ApplyMove(st, role, big, small).Accepted?
    requires ApplyMove(st, role, big, small).outcome != Continue
    ensures var r := ApplyMove(st, role, big, small);
      r.state == Reset(Decided(st, role, big, small, r.outcome).score)
  {
  }

  /** For a code sent already in upper case the two handlers agree. */
  lemma AsWrittenAgreesOnUpperCase(rooms: Table, requested: string, caller: SocketId, role: Player,
                                   big: int, small: int, now: int)
    requires Codes.Upper(requested) == requested
    ensures PlayMoveAsWritten(rooms, requested, caller, role, big, small, now)
         == Completed(PlayMove(rooms, requested, caller, role, big, small, now))
  {
    var code := Codes.Upper(requested);
    if code in rooms && RoomPlayerOf(rooms[code], caller) == Some(role) {
      var r := ApplyMove(rooms[code].state, role, big, small);
      if r.Accepted? && r.outcome != Continue {
        DecidedAgrees(rooms, code, caller, role, big, small, now);
      }
    }
  }

  /** The deciding-move case of the agreement: the reset lands on the room the move was made in. */
  lemma DecidedAgrees(rooms: Table, code: Code, caller: SocketId, role: Player,
                      big: int, small: int, now: int)
    requires Codes.Upper(code) == code && code in rooms && RoomPlayerOf(rooms[code], caller) == Some(role)
    requires ApplyMove(rooms[code].state, role, big, small).Accepted?
    requires ApplyMove(rooms[code].state, role, big, small).outcome != Continue
    ensures PlayMoveAsWritten(rooms, code, caller, role, big, small, now)
         == Completed(PlayMove(rooms, code, caller, role, big, small, now))
  {
    var room := rooms[code];
    var r := ApplyMove(room.state, role, big, small);
    SettleIsDecidedReset(room.state, role, big, small);
    assert PlayMoveAsWritten(rooms, code, caller, role, big, small, now)
        == FinishAsWritten(rooms, code, code, Decided(room.state, role, big, small, r.outcome), r.outcome, now);
  }

  /**
   A deciding move sent under a code that is not upper case, for a room
   stored under its upper-cased code only, throws: the corrected handler
   replies with the outcome and a fresh board, the handler as written
   leaves the decided game, with the move on it, in the room.
   */
  lemma LowerCaseDecidingMoveThrows(rooms: Table, requested: string, caller: SocketId, role: Player,
                                    big: int, small: int, now: int)
    requires Codes.Upper(requested) in rooms && requested !in rooms
    requires RoomPlayerOf(rooms[Codes.Upper(requested)], caller) == Some(role)
    requires ApplyMove(rooms[Codes.Upper(requested)].state, role, big, small).Accepted?
    requires ApplyMove(rooms[Codes.Upper(requested)].state, role, big, small).outcome != Continue
    ensures var code := Codes.Upper(requested);
      var h := PlayMoveAsWritten(rooms, requested, caller, role, big, small, now);
      var fixed := PlayMove(rooms, requested, caller, role, big, small, now);
      && h.Threw?
      && h.rooms[code].state.smallBoards[big][small] == role
      && h.rooms[code].state.turn == rooms[code].state.turn
      && fixed.reply == Moved(ApplyMove(rooms[code].state, role, big, small).outcome)
      && fixed.rooms[code].state == Reset(h.rooms[code].state.score)
  {
    var code := Codes.Upper(requested);
    var room := rooms[code];
    var r := ApplyMove(room.state, role, big, small);
    var decided := Decided(room.state, role, big, small, r.outcome);
    assert PlayMoveAsWritten(rooms, requested, caller, role, big, small, now)
        == FinishAsWritten(rooms, code, requested, decided, r.outcome, now);
    SettleIsDecidedReset(room.state, role, big, small);
  }

  /**
   A move that goes on, sent under a code the table does not hold, throws
   too: the new state is read back under the code as sent before the caller
   is acknowledged. The move stays written on the room's board, with the
   turn passed, while the corrected handler acknowledges it.
   */
  lemma LowerCaseContinuingMoveThrows(rooms: Table, requested: string, caller: SocketId, role: Player,
                                      big: int, small: int, now: int)
    requires Codes.Upper(requested) in rooms && requested !in rooms
    requires RoomPlayerOf(rooms[Codes.Upper(requested)], caller) == Some(role)
    requires ApplyMove(rooms[Codes.Upper(requested)].state, role, big, small).Accepted?
    requires ApplyMove(rooms[Codes.Upper(requested)].state, role, big, small).outcome == Continue
    ensures var code := Codes.Upper(requested);
      var h := PlayMoveAsWritten(rooms, requested, caller, role, big, small, now);
      var fixed := PlayMove(rooms, requested, caller, role, big, small, now);
      && h.Threw?
      && h.rooms[code].state == fixed.rooms[code].state
      && h.rooms[code].state.turn == Other(role)
      && h.rooms[code].lastActivity == rooms[code].lastActivity
      && fixed.reply == Moved(Continue)
  {
  }

  /** Room "ABC" with a new game, X held by connection "s1", O by "s2". */
  const OpeningTable: Table :=
    map["ABC" := Room(Seats(Some("s1"), Some("s2")), map[], NewEmptyState(), 1, 1)]

  /**
   X opening in the centre sub-board with the code sent as "abc": the
   corrected handler acknowledges the move; as written, it throws.
   */
  lemma LowerCaseOpeningExample()
    ensures PlayMove(OpeningTable, "abc", "s1", X, 4, 0, 5).reply == Moved(Continue)
    ensures PlayMoveAsWritten(OpeningTable, "abc", "s1", X, 4, 0, 5).Threw?
  {
    assert Codes.Upper("abc") == "ABC";
    assert "abc" !in OpeningTable;
    assert RoomPlayerOf(OpeningTable["ABC"], "s1") == Some(X);
    GameScenarios.Opening();
  }

  /** Sub-board 0 and 1 won by X; X holds the first two cells of sub-board 2. */
  const WonGrid: Grid := [X, X, X, O, O, Empty, Empty, Empty, Empty]
  const NearGrid: Grid := [X, X, Empty, O, O, Empty, Empty, Empty, Empty]

  /** X to move in sub-board 2, one cell from taking the top row of the big board. */
  const MatchPoint: State :=
    State(X, 2, false, [0, 1],
          [WonGrid, WonGrid, NearGrid, EmptyGrid, EmptyGrid,
           EmptyGrid, EmptyGrid, EmptyGrid, EmptyGrid],
          [X, X, Empty, Empty, Empty, Empty, Empty, Empty, Empty], Score(0, 0))

  /** Room "ABC" at match point, X held by connection "s1", O by "s2". */
  const MatchTable: Table :=
    map["ABC" := Room(Seats(Some("s1"), Some("s2")), map[], MatchPoint, 1, 1)]

  lemma MatchPointWins()
    ensures ApplyMove(MatchPoint, X, 2, 2).Accepted?
    ensures ApplyMove(MatchPoint, X, 2, 2).outcome == Win(X)
  {
    var st := MatchPoint;
    assert st.smallBoards[2] == NearGrid;
    assert Legal(st, X, 2, 2);
    assert NearGrid[2 := X] == WonGrid;
    assert CheckSmallWin(WonGrid) == X by {
      assert SmallLines(WonGrid)[0] == (X, X, X);
    }
    var p := Place(st, X, 2, 2);
    assert p.bigBoard[0] == X && p.bigBoard[1] == X && p.bigBoard[2] == X;
    assert CheckBigWin(p.bigBoard) == X by {
      assert BigLines(p.bigBoard)[0] == (X, X, X);
    }
  }

  /**
   X completing the top row of the big board with the code sent as "abc":
   the corrected handler credits X and clears the board; as written, it throws.
   */
  lemma LowerCaseWinExample()
    ensures PlayMove(MatchTable, "abc", "s1", X, 2, 2, 5).reply == Moved(Win(X))
    ensures PlayMove(MatchTable, "abc", "s1", X, 2, 2, 5).rooms["ABC"].state == Reset(Score(1, 0))
    ensures PlayMoveAsWritten(MatchTable, "abc", "s1", X, 2, 2, 5).Threw?
  {
    assert Codes.Upper("abc") == "ABC";
    assert "abc" !in MatchTable;
    assert RoomPlayerOf(MatchTable["ABC"], "s1") == Some(X);
    MatchPointWins();
    LowerCaseDecidingMoveThrows(MatchTable, "abc", "s1", X, 2, 2, 5);
    SettleIsDecidedReset(MatchPoint, X, 2, 2);
  }
}

=== FILE: reaper.dfy ===
/**
 The periodic cleanup: a room whose last sign of activity is older than the
 time-to-live is closed and removed from the table. The current time is a
 parameter.
 */
module Reaper {
  import opened Rooms
  import opened Directory

  /**
   The room has been idle for strictly longer than `ttl` at time `now`. Its
   last activity is read as the list shows it: the activity time, else the
   creation time, which reads as 0 when unset too.
   */
  predicate Expired(room: Room, now: int, ttl: int) {
    now - ShownActivity(room) > ttl
  }

  /** The table the cleanup leaves: the rooms that have not expired, unchanged. */
  function Survivors(rooms: Table, now: int, ttl: int): (kept: Table)
    ensures kept.Keys <= rooms.Keys
    ensures forall c :: c in kept ==> kept[c] == rooms[c] && !Expired(rooms[c], now, ttl)
    ensures forall c :: c in rooms && !Expired(rooms[c], now, ttl) ==> c in kept
  {
    map c | c in rooms && !Expired(rooms[c], now, ttl) :: rooms[c]
  }

  /**
   One round of the cleanup: every room is visited once; an expired room is
   reported closed and removed. Saving the table and broadcasting the list
   afterwards are not modelled.
   */
  method Sweep(rooms: Table, now: int, ttl: int) returns (kept: Table, closed: set<Code>)
    ensures kept == Survivors(rooms, now, ttl)
    ensures forall c :: c in closed <==> c in rooms && Expired(rooms[c], now, ttl)
    ensures kept.Keys !! closed && kept.Keys + closed == rooms.Keys
  {
    kept := rooms;
    closed := {};
    var todo := rooms.Keys;
    while todo != {}
      invariant todo <= rooms.Keys
      invariant kept.Keys <= rooms.Keys
      invariant forall c :: c in kept ==> kept[c] == rooms[c]
      invariant forall c :: c in todo ==> c in kept
      invariant forall c :: c in rooms && c !in todo ==> (c in kept <==> !Expired(rooms[c], now, ttl))
      invariant forall c :: c in closed <==> c in rooms && c !in todo && Expired(rooms[c], now, ttl)
      decreases todo
    {
      var c :| c in todo;
      if Expired(kept[c], now, ttl) {
        closed := closed + {c};
        kept := kept - {c};
      }
      todo := todo - {c};
    }
  }

  /** A second cleanup at the same time closes nothing more. */
  lemma SweepIdempotent(rooms: Table, now: int, ttl: int)
    ensures Survivors(Survivors(rooms, now, ttl), now, ttl) == Survivors(rooms, now, ttl)
  {
  }

  /**
   A room touched at `now` is not closed by a cleanup at `now` with a
   non-negative time-to-live, whatever its other times.
   */
  lemma TouchedSurvives(rooms: Table, key: Code, now: int, ttl: int)
    requires key in rooms && ttl >= 0 && now != 0
    ensures key in Survivors(Touch(rooms, key, now), now, ttl)
  {
  }

  /** The cleanup only removes rooms: it never seats, unseats or changes a game. */
  lemma SweepOnlyRemoves(rooms: Table, now: int, ttl: int)
    ensures TableConsistent(rooms) ==> TableConsistent(Survivors(rooms, now, ttl))
    ensures forall c :: c in Survivors(rooms, now, ttl) ==>
      Survivors(rooms, now, ttl)[c].players == rooms[c].players
  {
  }

  /**
   A room whose times are both unset reads as last active at time 0, so it
   is closed by the first cleanup after the time-to-live counted from 0.
   */
  lemma UnsetTimesExpire(room: Room, now: int, ttl: int)
    requires room.lastActivity == 0 && room.createdAt == 0
    ensures Expired(room, now, ttl) <==> now > ttl
  {
  }
}

=== FILE: room_lemmas.dfy ===
/**
 Properties of the room handlers: what a rejection leaves, the seat order of
 join, the unreachable "role unavailable" refusal, the reset after a decided
 game, and the board invariant kept across the whole table.
 */
module RoomLemmas {
  import opened Options
  import opened Board
  import opened Game
  import opened GameLemmas
  import opened Rooms

  /**
   join is refused only for a full room, so its "role unavailable" refusal
   is never given: the role it picks is always a free one.
   */
  lemma JoinNeverRoleUnavailable(rooms: Table, code: Code, nickname: string, caller: SocketId, now: int)
    ensures JoinIn(rooms, code, nickname, caller, now).reply != Refused(RoleUnavailable)
    ensures JoinIn(rooms, code, nickname, caller, now).reply.Refused? ==>
      JoinIn(rooms, code, nickname, caller, now).reply == Refused(RoomFull)
  {
  }

  /** Ensuring a room twice is ensuring it once: the second call finds the room. */
  lemma EnsureRoomIdempotent(rooms: Table, code: Code, now: int, later: int)
    ensures EnsureRoom(EnsureRoom(rooms, code, now), code, later) == EnsureRoom(rooms, code, now)
  {
  }

  /**
   Two joins from one connection on an unused code seat it as X and then as
   O: join does not check that the caller is seated already. Such a
   connection is always taken as X, so it can never make a move as O.
   */
  lemma SelfJoinTakesBothSeats(rooms: Table, code: Code, caller: SocketId, now: int, later: int,
                               big: int, small: int, when: int)
    requires code !in rooms && Codes.Normalized(code)
    ensures var first := JoinIn(rooms, code, "", caller, now);
      && first.reply.Seated? && first.reply.role == X
      && var second := JoinIn(first.rooms, code, "", caller, later);
      && second.reply.Seated? && second.reply.role == O
      && second.rooms[code].players == Seats(Some(caller), Some(caller))
      && PlayMove(second.rooms, code, caller, O, big, small, when).reply == Refused(Unauthorized)
  {
    var first := JoinIn(rooms, code, "", caller, now);
    var second := JoinIn(first.rooms, code, "", caller, later);
    assert second.rooms[code].players == Seats(Some(caller), Some(caller));
    Codes.UpperFixes(code);
  }

  /**
   A move that decides the game (won or drawn) leaves the room under the
   upper-cased code with a fresh game: the winner, who is the mover, is
   credited one game, a draw credits no one.
   */
  lemma DecidedMoveResetsRoom(rooms: Table, requested: string, caller: SocketId, role: Player,
                              big: int, small: int, now: int)
    requires TableConsistent(rooms)
    requires PlayMove(rooms, requested, caller, role, big, small, now).reply.Moved?
    requires PlayMove(rooms, requested, caller, role, big, small, now).reply.outcome != Continue
    ensures var code := Codes.Upper(requested);
      var st := PlayMove(rooms, requested, caller, role, big, small, now);
      && code in st.rooms
      && BoardsCleared(st.rooms[code].state)
      && st.rooms[code].state.turn == X && st.rooms[code].state.jokerMode
      && st.rooms[code].state.score ==
           (if st.reply.outcome.Win? then Credit(rooms[code].state.score, role) else rooms[code].state.score)
      && st.rooms[code].players == rooms[code].players
  {
    var code := Codes.Upper(requested);
    var st := PlayMove(rooms, requested, caller, role, big, small, now);
    var r := ApplyMove(rooms[code].state, role, big, small);
    if r.outcome.Win? {
      WinScoresMover(rooms[code].state, role, big, small, r.outcome.winner);
    } else {
      DrawNeedsAllWon(rooms[code].state, role, big, small);
    }
  }

  /** A move keeps the board invariant of every room in the table. */
  lemma PlayKeepsTableConsistent(rooms: Table, requested: string, caller: SocketId, role: Player,
                                 big: int, small: int, now: int)
    requires TableConsistent(rooms)
    ensures TableConsistent(PlayMove(rooms, requested, caller, role, big, small, now).rooms)
  {
    var code := Codes.Upper(requested);
    var st := PlayMove(rooms, requested, caller, role, big, small, now);
    if st.reply.Moved? {
      MovePreservesConsistent(rooms[code].state, role, big, small);
    }
  }

  /** Creating a room keeps the board invariant of every room: a new room starts a new game. */
  lemma CreateKeepsTableConsistent(rooms: Table, code: Code, nickname: string, caller: SocketId, now: int)
    requires TableConsistent(rooms)
    ensures TableConsistent(CreateIn(rooms, code, nickname, caller, now).rooms)
  {
    var st := CreateIn(rooms, code, nickname, caller, now);
    forall c | c in st.rooms
      ensures Consistent(st.rooms[c].state)
    {
      if c == code && code !in rooms {
        assert st.rooms[c].state == FreshRoom(now).state;
      }
    }
  }

  /** Joining a room keeps the board invariant of every room. */
  lemma JoinKeepsTableConsistent(rooms: Table, code: Code, nickname: string, caller: SocketId, now: int)
    requires TableConsistent(rooms)
    ensures TableConsistent(JoinIn(rooms, code, nickname, caller, now).rooms)
  {
    var st := JoinIn(rooms, code, nickname, caller, now);
    forall c | c in st.rooms
      ensures Consistent(st.rooms[c].state)
    {
      if c == code && code !in rooms {
        assert st.rooms[c].state == FreshRoom(now).state;
      }
    }
  }

  /** Resuming and leaving keep every room's game as it is. */
  lemma ResumeLeaveKeepTableConsistent(rooms: Table, requested: string, caller: SocketId, now: int)
    requires TableConsistent(rooms)
    ensures TableConsistent(ResumeRoom(rooms, requested, caller, now).rooms)
    ensures TableConsistent(LeaveRoom(rooms, requested, caller, now))
  {
  }

  /** Releasing a connection from a room twice is releasing it once. */
  lemma ReleaseIdempotent(room: Room, id: SocketId)
    ensures Release(Release(room, id), id) == Release(room, id)
    ensures !Affected(Release(room, id), id)
  {
  }

  /**
   resume and leave refresh the activity time under the code exactly as
   sent, so a code sent in lower case, for a room stored upper-cased,
   refreshes nothing: the room can be closed as idle while it is in use.
   */
  lemma LowerCaseVisitDoesNotRefresh(rooms: Table, requested: string, caller: SocketId, now: int)
    requires requested !in rooms
    ensures forall c :: c in rooms ==>
      ResumeRoom(rooms, requested, caller, now).rooms[c].lastActivity == rooms[c].lastActivity
    ensures forall c :: c in rooms ==>
      LeaveRoom(rooms, requested, caller, now)[c].lastActivity == rooms[c].lastActivity
  {
  }
}

=== FILE: rooms.dfy ===
/**
 The room table: a map from room code to room. Each room holds the two role
 seats (bound to a connection identifier or free), the nicknames of seated
 connections, one game state, and its creation and last-activity times.
 Every handler is a pure function from the table (and the request) to the
 next table and the reply the caller gets.
 */
module Rooms {
  import opened Options
  import opened Board
  import opened Game
  import opened Codes

  /**
   A connection identifier, as the transport assigns it: never empty, so a
   seat holding one is bound in the source's truthy sense.
   */
  type SocketId = s: string | s != "" witness "s"


  /** A room code, as used to key the table. */
  type Code = string

  /** Which connection holds each role, if any. */
  datatype Seats = Seats(x: Option<SocketId>, o: Option<SocketId>)

  /**
   A room. `createdAt` and `lastActivity` are milliseconds; 0 stands for a
   missing time, which the source reads as false.
   */
  datatype Room = Room(
    players: Seats,
    nicknames: map<SocketId, string>,
    state: State,
    createdAt: int,
    lastActivity: int)

  type Table = map<Code, Room>

  /** The idle time after which a room is removed: 30 minutes unless configured. */
  const DefaultTtl: int := 1800000

  /** The seat of role `p`. */
  function Seat(s: Seats, p: Player): Option<SocketId> {
    if p == X then s.x else s.o
  }

  /** Why a request is refused. */
  datatype RoomError =
    | AlreadyExists
    | RoomFull
    | RoleUnavailable
    | NotFound
    | Unauthorized
    | Illegal(move: MoveError)

  /** The reason string sent back to the caller. */
  function RoomMessage(e: RoomError): string {
    match e
    case AlreadyExists => "La salle existe déjà."
    case RoomFull => "Salle pleine."
    case RoleUnavailable => "Rôle indisponible."
    case NotFound => "Salle introuvable."
    case Unauthorized => "Non autorisé."
    case Illegal(m) => MoveMessage(m)
  }

  /** What the caller is told. */
  datatype Reply =
    | Seated(code: Code, role: Player, state: State)
    | Resumed(code: string, seat: Option<Player>, state: State)
    | Moved(outcome: Outcome)
    | Refused(error: RoomError)

  /** The table after a request, and the reply to it. */
  datatype Step = Step(rooms: Table, reply: Reply)

  /** The room a new code gets: no seat bound, no nickname, a new game. */
  function FreshRoom(now: int): (room: Room)
    ensures room.players == Seats(None, None) && room.nicknames == map[]
    ensures room.state == NewEmptyState() && Consistent(room.state)
    ensures room.createdAt == now && room.lastActivity == now
  {
    Room(Seats(None, None), map[], NewEmptyState(), now, now)
  }

  /** The table with a room under `code`: an existing room is kept, a missing one created. */
  function EnsureRoom(rooms: Table, code: Code, now: int): (r: Table)
    ensures r.Keys == rooms.Keys + {code}
    ensures forall c :: c in rooms ==> r[c] == rooms[c]
    ensures code !in rooms ==> r[code] == FreshRoom(now)
  {
    if code in rooms then rooms else rooms[code := FreshRoom(now)]
  }

  /** Records activity on the room under `key`, if there is one; nothing else changes. */
  function Touch(rooms: Table, key: string, now: int): (r: Table)
    ensures r.Keys == rooms.Keys
    ensures forall c :: c in rooms && c != key ==> r[c] == rooms[c]
    ensures key in rooms ==> r[key] == rooms[key].(lastActivity := now)
  {
    if key in rooms then rooms[key := rooms[key].(lastActivity := now)] else rooms
  }

  /** The role `id` holds in `room`: X is looked at first, then O. */
  function RoomPlayerOf(room: Room, id: SocketId): (r: Option<Player>)
    ensures r.Some? <==> room.players.x == Some(id) || room.players.o == Some(id)
    ensures r.Some? ==> Seat(room.players, r.value) == Some(id)
    ensures room.players.x == Some(id) ==> r == Some(X)
  {
    if room.players.x == Some(id) then Some(X)
    else if room.players.o == Some(id) then Some(O)
    else None
  }

  /** A nickname, or the default when it is missing or empty. */
  function NicknameOr(nickname: string, default: string): (n: string)
    ensures n != ""  || default == ""
    ensures nickname != "" ==> n == nickname
  {
    if nickname == "" then default else nickname
  }

  /** The code a create request uses: the normalized request, or a generated one when that is empty. */
  function CreateCode(requested: string, generated: Code): (code: Code)
    ensures Normalize(requested) != "" ==> code == Normalize(requested)
    ensures Normalize(requested) == "" ==> code == generated
  {
    var code := Normalize(requested);
    if code == "" then generated else code
  }

  /**
   createRoom once the code is chosen: the room under `code` is ensured, then
   the request is refused when any seat of it is bound; otherwise the caller
   takes X.
   */
  function CreateIn(rooms: Table, code: Code, nickname: string, caller: SocketId, now: int): (st: Step)
    ensures st.reply.Refused? <==>
      code in rooms && (rooms[code].players.x.Some? || rooms[code].players.o.Some?)
    ensures st.reply.Refused? ==> st.rooms == rooms && st.reply.error == AlreadyExists
    ensures !st.reply.Refused? ==>
      var before := if code in rooms then rooms[code] else FreshRoom(now);
      && st.rooms.Keys == rooms.Keys + {code}
      && (forall c :: c in rooms && c != code ==> st.rooms[c] == rooms[c])
      && st.reply == Seated(code, X, before.state)
      && st.rooms[code] == before.(players := Seats(Some(caller), None),
                                   nicknames := before.nicknames[caller := NicknameOr(nickname, "J1")],
                                   lastActivity := now)
  {
    var ensured := EnsureRoom(rooms, code, now);
    var room := ensured[code];
    if room.players.x.Some? || room.players.o.Some? then
      Step(ensured, Refused(AlreadyExists))
    else
      var seated := room.(players := Seats(Some(caller), room.players.o),
                          nicknames := room.nicknames[caller := NicknameOr(nickname, "J1")],
                          lastActivity := now);
      Step(ensured[code := seated], Seated(code, X, room.state))
  }

  /**
   createRoom: the requested code, trimmed and upper-cased, or a generated
   one when that leaves nothing.
   */
  function CreateRoom(rooms: Table, requested: string, generated: Code, nickname: string,
                      caller: SocketId, now: int): (st: Step)
    ensures st == CreateIn(rooms, CreateCode(requested, generated), nickname, caller, now)
    ensures st.reply.Seated? ==> st.reply.code == generated || Normalized(st.reply.code)
  {
    CreateIn(rooms, CreateCode(requested, generated), nickname, caller, now)
  }

  /**
   joinRoom once the code is normalized: the room under `code` is ensured (a
   missing one is created); the caller takes X when it is free, else O when
   it is free, else the request is refused as a full room.
   */
  function JoinIn(rooms: Table, code: Code, nickname: string, caller: SocketId, now: int): (st: Step)
    ensures st.reply.Refused? <==>
      code in rooms && rooms[code].players.x.Some? && rooms[code].players.o.Some?
    ensures st.reply.Refused? ==> st.rooms == rooms
    ensures !st.reply.Refused? ==>
      var role := if code !in rooms || rooms[code].players.x.None? then X else O;
      var before := if code in rooms then rooms[code] else FreshRoom(now);
      && st.rooms.Keys == rooms.Keys + {code}
      && (forall c :: c in rooms && c != code ==> st.rooms[c] == rooms[c])
      && st.reply == Seated(code, role, before.state)
      && Seat(before.players, role).None?
      && Seat(st.rooms[code].players, role) == Some(caller)
      && Seat(st.rooms[code].players, Other(role)) == Seat(before.players, Other(role))
      && st.rooms[code] == before.(players := st.rooms[code].players,
                                   nicknames := before.nicknames[caller :=
                                     NicknameOr(nickname, if role == X then "J1" else "J2")],
                                   lastActivity := now)
  {
    var ensured := EnsureRoom(rooms, code, now);
    var room := ensured[code];
    if room.players.x.Some? && room.players.o.Some? then
      Step(ensured, Refused(RoomFull))
    else
      var role: Player := if room.players.x.None? then X else O;
      if Seat(room.players, role).Some? then
        Step(ensured, Refused(RoleUnavailable))
      else
        var seats := if role == X then room.players.(x := Some(caller)) else room.players.(o := Some(caller));
        var default := if role == X then "J1" else "J2";
        var seated := room.(players := seats,
                            nicknames := room.nicknames[caller := NicknameOr(nickname, default)],
                            lastActivity := now);
        Step(ensured[code := seated], Seated(code, role, room.state))
  }

  /** joinRoom: the requested code, trimmed and upper-cased. */
  function JoinRoom(rooms: Table, requested: string, nickname: string,
                    caller: SocketId, now: int): (st: Step)
    ensures st == JoinIn(rooms, Normalize(requested), nickname, caller, now)
    ensures st.reply.Seated? ==> Normalized(st.reply.code)
  {
    JoinIn(rooms, Normalize(requested), nickname, caller, now)
  }

  /**
   resumeRoom: the room is looked up under the upper-cased code (not
   trimmed); the caller learns the role it holds there, if any. The activity
   time is refreshed under the code exactly as sent.
   */
  function ResumeRoom(rooms: Table, requested: string, caller: SocketId, now: int): (st: Step)
    ensures Upper(requested) !in rooms <==> st.reply == Refused(NotFound)
    ensures Upper(requested) !in rooms ==> st.rooms == rooms
    ensures Upper(requested) in rooms ==>
      var room := rooms[Upper(requested)];
      && st.reply == Resumed(requested, RoomPlayerOf(room, caller), room.state)
      && st.reply.Resumed? && st.reply.state == room.state
      && (st.reply.seat.Some? <==> room.players.x == Some(caller) || room.players.o == Some(caller))
      && (st.reply.seat.Some? ==> Seat(room.players, st.reply.seat.value) == Some(caller))
      && st.rooms.Keys == rooms.Keys
      && (forall c :: c in rooms ==> st.rooms[c].players == rooms[c].players && st.rooms[c].state == rooms[c].state)
      && (forall c :: c in rooms && c != requested ==> st.rooms[c] == rooms[c])
      && (requested in rooms ==> st.rooms[requested] == rooms[requested].(lastActivity := now))
  {
    var key := Upper(requested);
    if key !in rooms then Step(rooms, Refused(NotFound))
    else Step(Touch(rooms, requested, now), Resumed(requested, RoomPlayerOf(rooms[key], caller), rooms[key].state))
  }

  /**
   playMove: the room is looked up under the upper-cased code; the caller
   must hold exactly the role it claims; then the move transition decides.
   An accepted move replaces the room's game state and refreshes its
   activity time; a refusal changes nothing.
   */
  function PlayMove(rooms: Table, requested: string, caller: SocketId, role: Player,
                    big: int, small: int, now: int): (st: Step)
    ensures var code := Upper(requested);
      && (st.reply == Refused(NotFound) <==> code !in rooms)
      && (st.reply == Refused(Unauthorized) <==>
            code in rooms && RoomPlayerOf(rooms[code], caller) != Some(role))
      && (st.reply.Refused? ==> st.rooms == rooms)
      && (st.reply.Moved? <==>
            code in rooms && RoomPlayerOf(rooms[code], caller) == Some(role) &&
            Legal(rooms[code].state, role, big, small))
      && (st.reply.Refused? && st.reply.error.Illegal? ==>
            code in rooms && ApplyMove(rooms[code].state, role, big, small) == Rejected(st.reply.error.move))
      && (code in rooms && RoomPlayerOf(rooms[code], caller) == Some(role) &&
          ApplyMove(rooms[code].state, role, big, small).Rejected? ==>
            st == Step(rooms, Refused(Illegal(ApplyMove(rooms[code].state, role, big, small).error))))
      && (st.reply.Moved? ==>
            var r := ApplyMove(rooms[code].state, role, big, small);
            && st.reply.outcome == r.outcome
            && st.rooms == rooms[code := rooms[code].(state := r.state, lastActivity := now)])
  {
    var code := Upper(requested);
    if code !in rooms then Step(rooms, Refused(NotFound))
    else
      var room := rooms[code];
      if RoomPlayerOf(room, caller) != Some(role) then Step(rooms, Refused(Unauthorized))
      else
        match ApplyMove(room.state, role, big, small)
        case Rejected(e) => Step(rooms, Refused(Illegal(e)))
        case Accepted(next, outcome) =>
          Step(Touch(rooms[code := room.(state := next)], code, now), Moved(outcome))
  }

  /** The seats with every seat held by `id` freed. */
  function Unseat(s: Seats, id: SocketId): (r: Seats)
    ensures r.x != Some(id) && r.o != Some(id)
    ensures s.x == Some(id) ==> r.x.None?
    ensures s.o == Some(id) ==> r.o.None?
    ensures s.x != Some(id) ==> r.x == s.x
    ensures s.o != Some(id) ==> r.o == s.o
  {
    Seats(if s.x == Some(id) then None else s.x, if s.o == Some(id) then None else s.o)
  }

  /**
   leaveRoom: in the room under the upper-cased code, the caller's seats are
   freed and its nickname dropped; the activity time is refreshed under the
   code exactly as sent. A missing room is ignored.
   */
  function LeaveRoom(rooms: Table, requested: string, caller: SocketId, now: int): (r: Table)
    ensures r.Keys == rooms.Keys
    ensures forall c :: c in rooms ==>
      && r[c].state == rooms[c].state
      && r[c].createdAt == rooms[c].createdAt
    ensures forall c :: c in rooms && c != Upper(requested) ==>
      r[c].players == rooms[c].players && r[c].nicknames == rooms[c].nicknames
    ensures Upper(requested) in rooms ==>
      var before := rooms[Upper(requested)];
      var after := r[Upper(requested)];
      && after.players.x != Some(caller) && after.players.o != Some(caller)
      && (before.players.x == Some(caller) ==> after.players.x.None?)
      && (before.players.o == Some(caller) ==> after.players.o.None?)
      && (before.players.x != Some(caller) ==> after.players.x == before.players.x)
      && (before.players.o != Some(caller) ==> after.players.o == before.players.o)
      && after.nicknames == before.nicknames - {caller}
    ensures Upper(requested) !in rooms ==> r == rooms
    ensures forall c :: c in rooms && c != requested ==> r[c].lastActivity == rooms[c].lastActivity
    ensures Upper(requested) in rooms && requested in rooms ==> r[requested].lastActivity == now
  {
    var key := Upper(requested);
    if key !in rooms then rooms
    else
      var room := rooms[key];
      var left := room.(players := Unseat(room.players, caller), nicknames := room.nicknames - {caller});
      Touch(rooms[key := left], requested, now)
  }

  /**
   What a disconnect does to one room: the connection's seats are freed, and
   its nickname is dropped when it is a non-empty one.
   */
  function Release(room: Room, id: SocketId): (r: Room)
    ensures r.players == Unseat(room.players, id)
    ensures id in room.nicknames && room.nicknames[id] != "" ==> r.nicknames == room.nicknames - {id}
    ensures !(id in room.nicknames && room.nicknames[id] != "") ==> r.nicknames == room.nicknames
    ensures r.state == room.state && r.createdAt == room.createdAt && r.lastActivity == room.lastActivity
  {
    var nicknames := if id in room.nicknames && room.nicknames[id] != "" then room.nicknames - {id}
                     else room.nicknames;
    room.(players := Unseat(room.players, id), nicknames := nicknames)
  }

  /** The connection holds a seat or a non-empty nickname in the room: a disconnect changes it. */
  predicate Affected(room: Room, id: SocketId) {
    room.players.x == Some(id) || room.players.o == Some(id) ||
    (id in room.nicknames && room.nicknames[id] != "")
  }

  /**
   disconnect: every room is released from the connection, one after
   the other; the rooms the connection was affecting are reported, as those
   are told a player left. No room is removed and no game state changes.
   */
  method Disconnect(rooms: Table, caller: SocketId) returns (r: Table, left: set<Code>)
    ensures r.Keys == rooms.Keys
    ensures forall c :: c in rooms ==> r[c] == Release(rooms[c], caller)
    ensures forall c :: c in left <==> c in rooms && Affected(rooms[c], caller)
  {
    r := rooms;
    left := {};
    var todo := rooms.Keys;
    while todo != {}
      invariant todo <= rooms.Keys
      invariant r.Keys == rooms.Keys
      invariant forall c :: c in rooms && c !in todo ==> r[c] == Release(rooms[c], caller)
      invariant forall c :: c in todo ==> r[c] == rooms[c]
      invariant forall c :: c in left <==> c in rooms && c !in todo && Affected(rooms[c], caller)
      decreases todo
    {
      var c :| c in todo;
      if Affected(r[c], caller) {
        left := left + {c};
      }
      r := r[c := Release(r[c], caller)];
      todo := todo - {c};
    }
  }

  /** Every room's game keeps the board invariant. */
  ghost predicate TableConsistent(rooms: Table) {
    forall c :: c in rooms ==> Consistent(rooms[c].state)
  }
}
